=== FILE: README.md ===
# Paladin engine kernel, modelled in Dafny

Paladin is a browser game engine. Its kernel, `src/paladin.js`, holds four
pieces, and this project models each one:

- **Tasker**: a scheduler of per-frame tasks. Each task is indexed by id and
  optionally by name. Every task is timed once per pass, and an enabled one
  is also called; it is removed when its callback returns the task's own `DONE`.
- **Messenger**: an event dispatcher. It keeps a table from an event name to a
  bucket of listeners, one per entity id. `listen` fills a slot, `ignore`
  empties it, and `send` calls every listener with its registered parameters
  followed by the sent ones. A listener that is not persistent is dropped after
  it has been called. DOM key, button and wheel events are translated into
  canonical event names such as `shift-a-down`, `mouse1-up` and `wheel-down`,
  then sent.
- **Entity**: an identity token drawn from a process-wide counter. It is a
  facade over the Messenger, and its listeners are always persistent.
- **Components**: Spatial, Scene, Camera and Model. They are composed with
  `addChild` and `setParent`, which dispatch on the kinds of the two
  components involved. They drive a graphics backend, which is modelled here
  as a log of the calls made into it.

Files:

| file | contents |
|---|---|
| `wrappers.dfy` | `Option`, `Result`, `Outcome` |
| `for_in.dfy` | `for ... in` order over integer keys: ascending (`ForIn.Ascending`) |
| `event_names.dfy` | the three input-name translators, `join('-')`, decimal printing |
| `messenger.dfy` | the listener table as pure functions, and the `Messenger` class proved against them |
| `entity.dfy` | the id counter and the `Entity` facade |
| `tasker.dfy` | the `Task` and `Tasker` classes, and one run pass |
| `components.dfy` | the four component classes, the dispatch table, the backend log |

The Messenger and the Tasker are classes whose fields change in place, as in
the source. Each method is proved against a function of the old state: for
example, `Messenger.Send` against `Sent` and `Tasker.Run` against `Ascending`,
`Finished` and `NamesOf`. The properties are then proved about those
functions. A loop over `for (id in obj)` picks the least remaining key on each
step, because JavaScript visits array-index keys (below 2^32 - 1) in
ascending numeric order.

Behaviour of the code that a reader might not expect, and that the model
keeps:

- A suspended task still gets `time := now` and `dt := now - time` on every
  pass; only its callback is skipped (`src/paladin.js:50-53`).
- A task is removed when its callback returns `0`, the task's own `DONE`. The
  Tasker's `DONE` is `1`, and returning it keeps the task
  (`src/paladin.js:38`, `54`, `79`).
- A task added without a callback runs `function () {}`, which returns
  `undefined`; `0 === undefined` is false, so such a task is never removed
  by a pass (`src/paladin.js:72`, `54`).
- Adding a second task under an existing name re-points the name without
  removing the first task. Removing the first task later drops the name
  entry, even though the entry now points to the second task
  (`src/paladin.js:92-93`, `101-103`).
- `send` removes the non-persistent listeners but leaves their bucket in
  place, even when the bucket is empty. Only `ignore` drops an empty bucket.
- `Entity.listen` forwards `persistent` or-ed with `true`, so every listener registered
  through an entity is persistent.
- Key code 224 is a bare modifier, but it adds no modifier name. Pressed with
  no modifier held, its event name is the bare mode (`down`), with no hyphen.
- `Spatial.addChild(camera)` binds `camera.object`, which is undefined. It is
  modelled as a bind with no child (`BindChild(node, None)`).
- `Scene.setParent` does nothing at all, not even recording the parent.

## Model

| member | source | states |
|---|---|---|
| ForIn.AscendingOrder | src/paladin.js:205 | The `for ... in` visiting order lists every key of the bucket or table exactly once, and in strictly ascending order. |
| EventNames.Join | src/paladin.js:285 | `join('-')`: no parts give the empty string and one part gives itself. Two or more start with the first part and `-`, and end with `-` and the last part. |
| EventNames.Decimal | src/paladin.js:281 | A code prints as a non-empty string that starts with `-` exactly when the code is negative. The rest is a non-empty run of decimal digits that reads back as the code's magnitude, with no leading zero except for 0 itself. |
| EventNames.NatDigitsRoundTrip | src/paladin.js:281 | The decimal text that `'<' + code + '>'` prints is non-empty, all digits, and reads back as the number; it starts with `0` only for 0. |
| EventNames.DecimalInjective | src/paladin.js:281 | Different integer codes print differently, including negative ones. |
| EventNames.Bracketed | src/paladin.js:281 | The name of an unnamed code is at least three characters long, starts with `<` and ends with `>`. |
| EventNames.BracketedInjective | src/paladin.js:281 | Different codes give different bracketed names. |
| EventNames.ModifierNames | src/paladin.js:255-263 | Each of shift, control, alt and meta is present exactly when its flag is set, in that fixed order. The list is empty exactly when no flag is set. |
| EventNames.KeyModifiers | src/paladin.js:256-263 | A keystroke counts as its own modifier: shift is named when held or when the key is 16, control when held or 17, alt when held or 18, and meta when held or 0. |
| EventNames.HeldModifiers | src/paladin.js:293-300 | For mouse events each modifier is named exactly when held, and no name is given exactly when none is held. |
| EventNames.WheelBody | src/paladin.js:330-333 | The wheel direction is at most one component: none exactly for detail 0, `wheel-up` exactly for a negative detail, `wheel-down` exactly for a positive one. |
| EventNames.LowerChar | src/paladin.js:278-279 | A code in 48..90 becomes a digit, punctuation in 58..64, or a lower-case letter. |
| EventNames.KeyBody | src/paladin.js:265-281 | A key has no body component exactly when it is a bare modifier (0, 16-18, 224), and at most one otherwise. |
| EventNames.ConvertKeyEvent | src/paladin.js:252-287 | A key name always ends with the mode. It ends with `-` + mode unless key 224 is pressed with no modifier held, in which case it is the mode alone. |
| EventNames.KeyNameStartsWithModifiers | src/paladin.js:256-263 | When a modifier is active, the key name starts with the joined modifier names followed by `-`. |
| EventNames.KeyBodyInjective | src/paladin.js:268-281 | Two ordinary keys with the same body component are the same key. |
| EventNames.KeyNameShape | src/paladin.js:283-285 | An ordinary key's name is its modifier prefix, then its body, `-` and the mode. |
| EventNames.KeyNameDeterminesKey | src/paladin.js:252-287 | Two ordinary keys pressed with the same held modifiers and mode get equal names only if they are the same key. |
| EventNames.BareModifierKeyName | src/paladin.js:256-285 | A bare modifier key (0, 16-18, 224) names exactly its active modifiers' prefix and then the mode, with nothing between, whatever else is held: key 17 with shift held gives `shift-control-down`. |
| EventNames.ButtonBody | src/paladin.js:302-309 | A button always has a non-empty body: mouse1 for 0, mouse2 for 2, mouse3 for 1, otherwise the bracketed code. |
| EventNames.ButtonBodyInjective | src/paladin.js:302-309 | Different buttons get different bodies. |
| EventNames.ConvertMouseButtonEvent | src/paladin.js:289-315 | A button name is exactly the held modifiers joined with `-` and followed by `-` (nothing when none is held), then the button body, `-` and the mode. |
| EventNames.ConvertMouseWheelEvent | src/paladin.js:317-337 | For a non-zero detail a wheel name is exactly the held-modifier prefix followed by `wheel-up` (negative detail) or `wheel-down` (positive), with no mode. For detail 0 it is the joined modifiers alone. It is empty exactly when the detail is 0 and no modifier is held. |
| EventNames.ShiftADown | src/paladin.js:252-287 | Shift held while pressing `A` gives `shift-a-down`. |
| EventNames.LeftArrowUp | src/paladin.js:270-271 | Releasing the left arrow gives `larrow-up`. |
| EventNames.BareModifierKeys | src/paladin.js:256-267 | A bare shift, control, alt or meta (code 0) key names only its modifier and the mode. |
| EventNames.Mouse1Down | src/paladin.js:302-303 | Button 0 going down gives `mouse1-down`. |
| EventNames.WheelUp | src/paladin.js:330-331 | A negative detail with no modifier gives `wheel-up`, with no mode. |
| Messaging.Listened | src/paladin.js:178-187 | After `listen`, the (event, entity) slot holds the new registration. Every other slot is unchanged. The event's bucket exists afterwards. |
| Messaging.Ignored | src/paladin.js:189-196 | After `ignore`, the slot is empty and every other slot is unchanged. The event's bucket survives exactly when another entity is still listening. Other events' buckets are untouched. An unknown event is a no-op. |
| Messaging.Persistent | src/paladin.js:211-212 | The listeners left after a send are exactly the persistent ones, unchanged. |
| Messaging.Sent | src/paladin.js:202-215 | A send removes exactly the event's non-persistent registrations and leaves every other slot and the set of buckets as they were. An event without a bucket calls nothing. |
| Messaging.SendCallsEveryListenerOnce | src/paladin.js:203-213 | A send calls every listener of the event exactly once, in ascending entity order, with its registered parameters followed by the sent ones. It calls nothing else. |
| Messaging.ListenOverwrites | src/paladin.js:182-186 | A second `listen` on the same (event, entity) slot replaces the first. |
| Messaging.IgnoreIdempotent | src/paladin.js:189-196 | Calling `ignore` twice has the effect of calling it once. |
| Messaging.IgnoreUndoesListen | src/paladin.js:178-196 | `ignore` undoes a `listen` that filled an empty slot of a bucket that had other listeners. |
| Messaging.NonPersistentFiresOnce | src/paladin.js:205-212 | The first send after a non-persistent `listen` calls that callback exactly once, with its parameters followed by the sent ones. |
| Messaging.NonPersistentGoneAfterSend | src/paladin.js:211-212 | After a send, a non-persistent listener is gone, and no later send calls it. |
| Messaging.PersistentSurvivesSend | src/paladin.js:205-212 | A persistent listener keeps its registration through a send, and the next send calls it again. |
| Messaging.Messenger.constructor | src/paladin.js:175 | A new Messenger has no listeners. |
| Messaging.Messenger.Listen | src/paladin.js:178-187 | The table becomes `Listened` of the old table. |
| Messaging.Messenger.Ignore | src/paladin.js:189-196 | The table becomes `Ignored` of the old table. |
| Messaging.Messenger.Send | src/paladin.js:202-215 | The loop deletes as it goes. The new table and the calls made equal `Sent` of the old table. |
| Messaging.Messenger.KeyDown | src/paladin.js:217-222 | Sends the translated key name with mode `down` and no parameters. |
| Messaging.Messenger.KeyUp | src/paladin.js:224-229 | Sends the translated key name with mode `up` and no parameters. |
| Messaging.Messenger.MouseButtonDown | src/paladin.js:231-236 | Sends the translated button name with mode `down` and no parameters. |
| Messaging.Messenger.MouseButtonUp | src/paladin.js:238-243 | Sends the translated button name with mode `up` and no parameters. |
| Messaging.Messenger.MouseWheelScroll | src/paladin.js:245-250 | Sends the translated wheel name with no parameters. |
| Entities.EntityCounter.constructor | src/paladin.js:352 | The id counter starts at 0. |
| Entities.Entity.constructor | src/paladin.js:355 | A new entity takes the counter's current value as its id and advances the counter by one. |
| Entities.Entity.PersistentFlag | src/paladin.js:370 | The flag forwarded as `persistent` or true is true whatever is passed. |
| Entities.Entity.Listen | src/paladin.js:364-372 | Registers this entity's slot as persistent, with parameters defaulting to none. |
| Entities.Entity.Ignore | src/paladin.js:374-379 | Empties this entity's slot for the event. |
| Entities.Entity.Send | src/paladin.js:381-386 | Sends with parameters defaulting to none, which is exactly `Sent`. |
| Entities.EntityListenerPersists | src/paladin.js:364-386 | A listener registered through an entity with `persistent: false` is still called by the second send. |
| Entities.EntityIdsDiffer | src/paladin.js:352-355 | Two entities from one counter get ids 0 and 1. |
| Scheduling.Task.constructor | src/paladin.js:71-89 | A new task has its id, name and callback, `time == now`, `dt == 0` and is enabled. |
| Scheduling.Task.Suspend | src/paladin.js:83-85 | The task is disabled. |
| Scheduling.Task.Resume | src/paladin.js:86-88 | The task is enabled. |
| Scheduling.StoredName | src/paladin.js:74 | A task is named exactly when it was given a non-empty name, and then by that name. |
| Scheduling.RemovalKeepsIndexed | src/paladin.js:97-104 | Removing a set of tasks together with their names keeps both tables consistent: every task under its own id, every name entry a live task with that name. |
| Scheduling.Tasker.constructor | src/paladin.js:41-44 | The tables start empty, the next id is 0, and the tasker is not terminated. |
| Scheduling.Tasker.Add | src/paladin.js:69-95 | The new task gets the next id, which was unused. It is timed at `now`, enabled, and stored under its id. A named task also takes over the name entry. The tables stay consistent. |
| Scheduling.Tasker.Remove | src/paladin.js:97-104 | The task's id entry and its name entry are gone, whichever task the name entry pointed to. Nothing else changes, and the tables stay consistent. |
| Scheduling.Tasker.Delete | src/paladin.js:97-104 | The table updates of `remove`, with an absent task or name being a no-op. |
| Scheduling.Tasker.Terminate | src/paladin.js:65-67 | The tasker is marked terminated. |
| Scheduling.Tasker.Tick | src/paladin.js:49-57 | One task's turn refreshes its clock first. It calls the task only if the task is enabled. It removes the task only if the task has a callback of its own and that callback returned the task's `DONE` (0); the default `function () {}` returns `undefined`, which is never `DONE`. |
| Scheduling.Tasker.Run | src/paladin.js:47-63 | The callbacks called are exactly the tasks enabled at the start of the pass, in ascending id order; callbacks change no task. The tasks removed, with their names, are exactly those among them that have a callback of their own and returned 0; a task with the default callback is never removed. Every task that was live gets `time == now`, `dt == now - old time`, and keeps its run flag, suspended or not. The tables stay consistent. |
| Scheduling.DefaultCallbackNotFinished | src/paladin.js:72 | A task running the default callback is never among the tasks a pass removes. |
| Scheduling.DefaultCallbackKeepsTask | src/paladin.js:54-56 | A task added without a callback is called and kept, whatever value is recorded for it. |
| Scheduling.NameReuseOrphansTask | src/paladin.js:92-103 | A task whose name was re-used stays live but is no longer indexed by name. Removing it also drops the newer task's name entry. |
| Scheduling.DoneSignals | src/paladin.js:38-81 | A callback returning the Tasker's `DONE` (1) keeps its task, and one returning the task's `DONE` (0) removes it. |
| Scheduling.SuspendedTaskStillTimed | src/paladin.js:48-57 | A suspended task is not called, but its `dt` still advances. |
| Components.ObjectOf | src/paladin.js:442 | `child.object` exists exactly for a Spatial and a Model. |
| Components.DescriptorOf | src/paladin.js:396-401 | Camera and Model require a spatial and Spatial and Scene require nothing. Only Spatial and Scene are `core`. |
| Components.AddChildOps | src/paladin.js:441-527 | `parent.addChild(child)` makes exactly one backend call, or fails when the parent is a camera without a spatial. The call is given exactly for each kind of parent. A spatial binds the child's object under its own node, and a scene binds it under its root spatial's node. A camera binds it under its spatial's node. A model binds it under its own node. A camera child instead becomes the camera of a scene parent's render scene, or is re-parented to a model parent's node. The bound child object is absent for a scene or camera child. |
| Components.SetParentOps | src/paladin.js:444-531 | A scene ignores `setParent`. A camera makes one call: it becomes the camera of a scene parent's render scene, and otherwise its backend parent is the parent's object. A spatial or model makes exactly the calls of the parent's `addChild` with itself as the child. |
| Components.SetParentMirrorsAddChild | src/paladin.js:444-531 | `a.setParent(b)` makes the same backend calls as `b.addChild(a)` exactly when `a` is not a scene, and not a camera placed under a spatial or another camera. |
| Components.DispatchAddChild | src/paladin.js:441-527 | Dispatching `addChild` on the parent's kind appends exactly `AddChildOps` to the log and reports its failure. |
| Components.DispatchSetParent | src/paladin.js:444-531 | Dispatching `setParent` appends exactly `SetParentOps` to the log. It records the parent on every kind but a scene. |
| Components.Spatial.constructor | src/paladin.js:409-415 | Given arrays are kept, not copied, and missing ones are fresh `[0, 0, 0]`. One scene object is created, handed both arrays. |
| Components.Spatial.SetPosition | src/paladin.js:420-424 | The kept position array now holds the three coordinates. |
| Components.Spatial.SetRotation | src/paladin.js:428-432 | The kept rotation array now holds the three angles. |
| Components.Spatial.AddChild | src/paladin.js:441-443 | Binds the child's object under this spatial's object. |
| Components.Spatial.SetParent | src/paladin.js:444-447 | Records the parent, then makes exactly the parent's `addChild` calls. |
| Components.Scene.constructor | src/paladin.js:449-457 | Creates a backend scene and a new spatial, and binds the spatial's object as the scene's root. |
| Components.Scene.AddChild | src/paladin.js:463-470 | A camera becomes the scene's camera, and anything else is bound under the root spatial. |
| Components.Scene.SetParent | src/paladin.js:471-473 | Changes nothing and makes no backend call. |
| Components.Camera.constructor | src/paladin.js:475-478 | Uses the given backend camera, or creates one. The spatial is the given one or null. |
| Components.Camera.AddChild | src/paladin.js:485-487 | Delegates to the spatial, and fails with no backend call while the camera has none. |
| Components.Camera.SetParent | src/paladin.js:488-496 | Records the parent. A scene takes this camera as its camera, and under anything else the backend camera is re-parented to that thing's object. |
| Components.Camera.SetSpatial | src/paladin.js:497-501 | Stores the spatial. The arrays handed to the backend camera's position and rotation are the spatial's own arrays, not copies. |
| Components.Camera.SetTarget | src/paladin.js:502-504 | Sets the backend camera's target. |
| Components.Model.constructor | src/paladin.js:506-511 | Creates a scene object with the mesh, and keeps the spatial, mesh and material, or null. |
| Components.Model.AddChild | src/paladin.js:519-527 | A camera child is re-parented to the model's object, and anything else is bound under it. |
| Components.Model.SetParent | src/paladin.js:528-531 | Records the parent, then makes exactly the parent's `addChild` calls. |
| Components.Model.SetSpatial | src/paladin.js:532-539 | Stores the spatial. The arrays handed to the scene object's position and rotation are the spatial's own arrays. |
| Components.Model.SetMesh | src/paladin.js:540-543 | Stores the mesh and sets it on the scene object. |
| Components.Model.SetMaterial | src/paladin.js:544-546 | Stores the material, with no backend call. |
| Components.ComposeScene | src/paladin.js:441-504 | Composing a scene, a spatial, a model and a camera produces the expected bind calls, naming the handles in creation order. |
| Components.OrphanUnderBareCamera | src/paladin.js:485-487 | `setParent` onto a camera without a spatial fails and makes no backend call. |
| Components.CameraGetsSpatialArray | src/paladin.js:417-501 | The array handed to the backend camera is the spatial's own array, so a later position set through the spatial is visible in that array. |

## Left out

- The clock: `Date.now()` is the parameter `now`. One pass uses one instant for every task, while the source reads the clock once per task.
- Callbacks: a task callback's return values for a pass are the parameter `returned`, keyed by task id. A task missing from it returned something that is not a number. Callbacks do not re-enter the Tasker or the Messenger during a pass. A task callback receives its own task object, but in the model it changes no task: it neither suspends nor resumes any task and writes no task field. So the set of enabled tasks and every run flag are fixed at the start of a pass. In the source, a callback that resumes a later task gets that task called in the same pass, and one that suspends its own task leaves it suspended.
- Listener callbacks are opaque tokens. `send` returns the calls it makes, in order, instead of performing them. The binding of the callback to its entity is the `receiver` field.
- `setTimeout(that.run, 0)`: `Run` is one pass. The rescheduling and the loop that `terminate` stops are not modelled, so `Terminate` only sets the flag.
- `Paladin.init` and `Paladin.run` (debug wiring), `window.addEventListener` registration, `MouseWatcher`, `Loader` and `Messenger.ignoreAll` (an empty body) are not modelled.
- `Array.prototype.remove` is not modelled: nothing in the kernel calls it.
- The graphics backend is not part of this model. Each call into it is an `Op` in a log, and its objects are handles from a counter.
- JavaScript `concat` flattens nested arrays. Parameters here are flat sequences of values, and an `undefined` parameters value is not modelled: `Messenger.Send` takes a sequence.
- Entity fields `componentsByType` and `children` are never used by the kernel and are not modelled.
- A callback that throws is not modelled. In the source it ends `send` part-way through a bucket: later listeners are not called and the current non-persistent listener is not deleted. It also ends a `run` pass: later tasks are not timed and the pass is not rescheduled. Here `Send` and `Run` always complete.
- Event and task names are keys of plain JavaScript objects in the source, and here they are keys of maps. So the model does not capture three things. A `listen` on the event `hasOwnProperty` shadows that method, and every later `listen`, `ignore` and `send` throws. `__proto__` as an event name replaces the prototype, so `send` never finds it. `__proto__` as a task name likewise adds no name entry.
- `Messenger.listen` called directly without `parameters` stores `undefined`, and a later `send` throws at `concat`. Here a registration always holds a sequence; `Entity.listen` supplies `[]` anyway.
- EventNames.LowerChar: is the ASCII, locale-independent lower case. `toLocaleLowerCase()` depends on the host locale; for example, under a Turkish or Azeri locale code 73 gives dotless `ı`, not `i`.
- EventNames.Decimal: prints every integer as an optional `-` and its digits. JavaScript uses exponent form from 10^21 in magnitude; key codes and buttons are far below that.
- Backend setters are not modelled. The log records that the spatial's own arrays are handed to the camera or scene object. Whether the backend keeps them or copies them, as the spatial's own setters copy coordinates, depends on the backend, and so the model does not claim that the camera's pose follows later writes.
- Entity ids and task ids are assumed to stay below 2^32 - 1, the range of array-index keys. JavaScript visits larger integer keys of an object in insertion order, after the array-index keys, which the ascending order of `ForIn.Ascending` does not capture.
- Scheduling.Tasker.Remove: requires that a task found under its id is the task passed in. A task object from another tasker that collides on id is outside the model.
- Components.Spatial.SetPosition: requires the kept array to have length 3. A JavaScript array shorter than that would grow.
- Components.Spatial.SetRotation: requires the kept array to have length 3, for the same reason.
- The `spatial` fields of Camera and Model hold a Spatial or nothing. The source accepts any value there.
- `new ModelComponent()` without options throws in the source. The constructor here takes its options, each one possibly absent.
- Truthiness tests on meshes, cameras and materials (`options.mesh ? ... : null`) treat any given value as present.

=== FILE: components.dfy ===
/**
 * Components and their composition. The four component kinds (Spatial,
 * Scene, Camera, Model) are classes whose `parent`, `spatial`, `mesh` and
 * `material` fields change in place; `Comp` is the tagged union a method
 * receives when the source passes "some component". The graphics backend is
 * not modelled: every call into it is an `Op` appended to the log of a
 * `Graphics` object, and the backend's objects are the handles it hands out.
 *
 * The dispatch of `addChild` and `setParent` is a closed table over the four
 * kinds, written once as the functions `AddChildOps` and `SetParentOps`; the
 * methods append exactly those operations to the log.
 */
module Components {
  import opened Wrappers

  /** A backend object (scene object, scene or camera). */
  type Handle = nat
  /** An opaque mesh value. */
  type MeshId = nat
  /** An opaque material value. */
  type MaterialId = nat

  datatype Vec3 = Vec3(x: int, y: int, z: int)

  /** One call into the graphics backend. An absent handle is JavaScript's `undefined`. */
  datatype Op =
    | NewObject(node: Handle, mesh: Option<MeshId>)
    | NewScene(scene: Handle)
    | NewCamera(camera: Handle)
    | BindChild(parent: Handle, child: Option<Handle>)
    | BindSceneObject(scene: Handle, root: Handle)
    | BindCamera(scene: Handle, camera: Handle)
    | CameraSetParent(camera: Handle, parentNode: Option<Handle>)
      /** `target.position = position; target.rotation = rotation`: the arrays handed over, not copies of them. */
    | SharePose(target: Handle, position: array<int>, rotation: array<int>)
    | SetObjectMesh(node: Handle, mesh: Option<MeshId>)
    | SetCameraTarget(camera: Handle, lookAt: Vec3)

  /** `s.addChild(...)` on a camera whose `spatial` is still null throws. */
  datatype Failure = NullSpatial

  /** The graphics backend: a handle allocator and the log of calls made into it. */
  class Graphics {
    var next: Handle
    var log: seq<Op>

    constructor ()
      ensures next == 0 && log == []
    {
      next := 0;
      log := [];
    }

    /** A new backend object: a handle never handed out before, and its creation call. */
    method Create(op: Handle -> Op) returns (h: Handle)
      modifies this
      ensures h == old(next) && next == old(next) + 1
      ensures log == old(log) + [op(h)]
    {
      h := next;
      next := next + 1;
      log := log + [op(h)];
    }

    method Emit(ops: seq<Op>)
      modifies this`log
      ensures log == old(log) + ops
    {
      log := log + ops;
    }
  }

  /** "Some component", as the source's untyped arguments are. */
  datatype Comp =
    | SpatialC(spatial: Spatial)
    | SceneC(scene: Scene)
    | CameraC(camera: Camera)
    | ModelC(model: Model)

  /** `c.object`: Spatial and Model carry a scene object, Scene and Camera do not. */
  function ObjectOf(c: Comp): (r: Option<Handle>)
    ensures r.Some? <==> c.SpatialC? || c.ModelC?
  {
    match c
    case SpatialC(s) => Some(s.node)
    case ModelC(m) => Some(m.node)
    case SceneC(_) => None
    case CameraC(_) => None
  }

  /** The object whose mutable fields the dispatch on `c` as a parent reads. */
  function Ref(c: Comp): object {
    match c
    case SpatialC(s) => s
    case SceneC(sc) => sc
    case CameraC(cam) => cam
    case ModelC(m) => m
  }

  /**
   * The backend calls of `parent.addChild(child)`:
   * - a spatial binds the child's object under its own;
   * - a scene binds a camera as its camera, and anything else under its root spatial;
   * - a camera binds the child under its spatial's object, and fails without one;
   * - a model re-parents a camera to its object, and binds anything else under it.
   */
  function AddChildOps(parent: Comp, child: Comp): (r: Result<seq<Op>, Failure>)
    reads Ref(parent)
    ensures r.Err? <==> parent.CameraC? && parent.camera.spatial.None?
    ensures r.Ok? ==> |r.value| == 1
    ensures r.Ok? && child.CameraC? && parent.SceneC? ==>
      r.value[0].BindCamera? && r.value[0].camera == child.camera.camera
    ensures r.Ok? && child.CameraC? && parent.ModelC? ==>
      r.value[0].CameraSetParent? && r.value[0].camera == child.camera.camera
    ensures r.Ok? && !(child.CameraC? && (parent.SceneC? || parent.ModelC?)) ==>
      r.value[0].BindChild? && r.value[0].child == ObjectOf(child)
    // The parent's side of each call: the node, scene or object it binds to.
    ensures parent.SpatialC? ==> r == Ok([BindChild(parent.spatial.node, ObjectOf(child))])
    ensures parent.SceneC? && child.CameraC? ==> r == Ok([BindCamera(parent.scene.render, child.camera.camera)])
    ensures parent.SceneC? && !child.CameraC? ==> r == Ok([BindChild(parent.scene.spatial.node, ObjectOf(child))])
    ensures parent.CameraC? && parent.camera.spatial.Some? ==>
      r == Ok([BindChild(parent.camera.spatial.value.node, ObjectOf(child))])
    ensures parent.ModelC? && child.CameraC? ==> r == Ok([CameraSetParent(child.camera.camera, Some(parent.model.node))])
    ensures parent.ModelC? && !child.CameraC? ==> r == Ok([BindChild(parent.model.node, ObjectOf(child))])
  {
    match parent
    case SpatialC(s) => Ok([BindChild(s.node, ObjectOf(child))])
    case SceneC(sc) =>
      if child.CameraC? then Ok([BindCamera(sc.render, child.camera.camera)])
      else Ok([BindChild(sc.spatial.node, ObjectOf(child))])
    case CameraC(cam) =>
      if cam.spatial.None? then Err(NullSpatial)
      else Ok([BindChild(cam.spatial.value.node, ObjectOf(child))])
    case ModelC(m) =>
      if child.CameraC? then Ok([CameraSetParent(child.camera.camera, Some(m.node))])
      else Ok([BindChild(m.node, ObjectOf(child))])
  }

  /**
   * The backend calls of `self.setParent(parent)`: a scene ignores the call;
   * a camera under a scene becomes the scene's camera and under anything else
   * is re-parented to that thing's object; every other kind asks the parent
   * to add it as a child.
   */
  function SetParentOps(self: Comp, parent: Comp): (r: Result<seq<Op>, Failure>)
    reads Ref(parent)
    ensures self.SceneC? ==> r == Ok([])
    ensures self.CameraC? ==> r.Ok? && |r.value| == 1
    ensures self.CameraC? && parent.SceneC? ==> r == Ok([BindCamera(parent.scene.render, self.camera.camera)])
    ensures self.CameraC? && !parent.SceneC? ==>
      r.value[0] == CameraSetParent(self.camera.camera, ObjectOf(parent))
    ensures self.SpatialC? || self.ModelC? ==> r == AddChildOps(parent, self)
  {
    match self
    case SceneC(_) => Ok([])
    case CameraC(cam) =>
      if parent.SceneC? then AddChildOps(parent, self)
      else Ok([CameraSetParent(cam.camera, ObjectOf(parent))])
    case _ => AddChildOps(parent, self)
  }

  /** The log after a dispatch: the operations on success, nothing on failure. */
  function Appended(log: seq<Op>, r: Result<seq<Op>, Failure>): seq<Op> {
    if r.Ok? then log + r.value else log
  }

  function OutcomeOf(r: Result<seq<Op>, Failure>): Outcome<Failure> {
    if r.Ok? then Pass else Fail(r.error)
  }

  /** The `type`, `subtype` and `requires` a component inherits from its prototype. */
  datatype Descriptor = Descriptor(kind: string, subtype: seq<string>, needs: seq<string>)

  function DescriptorOf(c: Comp): (r: Descriptor)
    ensures r.needs == ["spatial"] <==> c.CameraC? || c.ModelC?
    ensures r.needs == [] <==> c.SpatialC? || c.SceneC?
    ensures r.kind == "core" <==> c.SpatialC? || c.SceneC?
  {
    match c
    case SpatialC(_) => Descriptor("core", ["spatial"], [])
    case SceneC(_) => Descriptor("core", ["scene"], [])
    case CameraC(_) => Descriptor("graphics", ["camera"], ["spatial"])
    case ModelC(_) => Descriptor("graphics", ["model"], ["spatial"])
  }

  /** A position or rotation triple, as the array it is stored in. */
  ghost predicate IsTriple(a: array<int>, v: Vec3)
    reads a
  {
    a[..] == [v.x, v.y, v.z]
  }

  class Spatial {
    const node: Handle
    /** X, Y, Z. */
    const position: array<int>
    /** Roll, pitch, yaw. */
    const rotation: array<int>
    var parent: Option<Comp>

    /**
     * A given position or rotation array is kept, not copied; a missing one
     * is a fresh `[0, 0, 0]`. The scene object is created with both arrays.
     */
    constructor (g: Graphics, position: Option<array<int>>, rotation: Option<array<int>>)
      modifies g
      ensures position.Some? ==> this.position == position.value
      ensures position.None? ==> fresh(this.position) && IsTriple(this.position, Vec3(0, 0, 0))
      ensures rotation.Some? ==> this.rotation == rotation.value
      ensures rotation.None? ==> fresh(this.rotation) && IsTriple(this.rotation, Vec3(0, 0, 0))
      ensures node == old(g.next) && g.next == old(g.next) + 1
      ensures g.log == old(g.log) + [NewObject(node, None), SharePose(node, this.position, this.rotation)]
      ensures parent.None?
    {
      var p, r;
      if position.Some? {
        p := position.value;
      } else {
        p := new int[3](_ => 0);
      }
      if rotation.Some? {
        r := rotation.value;
      } else {
        r := new int[3](_ => 0);
      }
      var h := g.Create((h: Handle) => NewObject(h, None));
      g.Emit([SharePose(h, p, r)]);
      this.position := p;
      this.rotation := r;
      node := h;
      parent := None;
    }

    /** The `position` setter copies the three coordinates into the kept array. */
    method SetPosition(v: Vec3)
      requires position.Length == 3
      modifies position
      ensures IsTriple(position, v)
    {
      position[0], position[1], position[2] := v.x, v.y, v.z;
    }

    method SetRotation(v: Vec3)
      requires rotation.Length == 3
      modifies rotation
      ensures IsTriple(rotation, v)
    {
      rotation[0], rotation[1], rotation[2] := v.x, v.y, v.z;
    }

    method AddChild(g: Graphics, child: Comp)
      modifies g`log
      ensures g.log == old(Appended(g.log, AddChildOps(SpatialC(this), child)))
    {
      g.Emit([BindChild(node, ObjectOf(child))]);
    }

    /** Records the parent, then asks it to add this spatial as a child. */
    method SetParent(g: Graphics, p: Comp) returns (r: Outcome<Failure>)
      modifies this`parent, g`log
      ensures parent == Some(p)
      ensures r == old(OutcomeOf(SetParentOps(SpatialC(this), p)))
      ensures g.log == old(Appended(g.log, SetParentOps(SpatialC(this), p)))
    {
      parent := Some(p);
      r := DispatchAddChild(g, p, SpatialC(this));
    }
  }

  class Scene {
    const render: Handle
    const spatial: Spatial
    var parent: Option<Comp>

    /** A backend scene (60 degree field of view, resizable) rooted at a new spatial's object. */
    constructor (g: Graphics)
      modifies g
      ensures fresh(spatial) && render == old(g.next) && spatial.node == render + 1
      ensures g.next == old(g.next) + 2
      ensures g.log == old(g.log) + [NewScene(render), NewObject(spatial.node, None),
                                     SharePose(spatial.node, spatial.position, spatial.rotation),
                                     BindSceneObject(render, spatial.node)]
      ensures parent.None?
    {
      var h := g.Create((h: Handle) => NewScene(h));
      var s := new Spatial(g, None, None);
      g.Emit([BindSceneObject(h, s.node)]);
      render := h;
      spatial := s;
      parent := None;
    }

    method AddChild(g: Graphics, child: Comp)
      modifies g`log
      ensures g.log == old(Appended(g.log, AddChildOps(SceneC(this), child)))
    {
      if child.CameraC? {
        g.Emit([BindCamera(render, child.camera.camera)]);
      } else {
        spatial.AddChild(g, child);
      }
    }

    /** Nothing to do: not even the parent is recorded. */
    method SetParent(g: Graphics, p: Comp)
      ensures parent == old(parent)
      ensures g.log == old(Appended(g.log, SetParentOps(SceneC(this), p)))
    {
    }
  }

  class Camera {
    const camera: Handle
    var spatial: Option<Spatial>
    var parent: Option<Comp>

    /** Uses the given backend camera, or creates one. */
    constructor (g: Graphics, camera: Option<Handle>, spatial: Option<Spatial>)
      modifies g
      ensures camera.Some? ==> this.camera == camera.value && g.next == old(g.next) && g.log == old(g.log)
      ensures camera.None? ==> this.camera == old(g.next) && g.next == old(g.next) + 1 &&
                               g.log == old(g.log) + [NewCamera(this.camera)]
      ensures this.spatial == spatial && parent.None?
    {
      if camera.Some? {
        this.camera := camera.value;
      } else {
        var h := g.Create((h: Handle) => NewCamera(h));
        this.camera := h;
      }
      this.spatial := spatial;
      parent := None;
    }

    /** Delegates to the spatial; fails while there is none. */
    method AddChild(g: Graphics, child: Comp) returns (r: Outcome<Failure>)
      modifies g`log
      ensures r == old(OutcomeOf(AddChildOps(CameraC(this), child)))
      ensures g.log == old(Appended(g.log, AddChildOps(CameraC(this), child)))
    {
      if spatial.None? {
        r := Fail(NullSpatial);
      } else {
        spatial.value.AddChild(g, child);
        r := Pass;
      }
    }

    /** Records the parent; a scene takes the camera as its own, anything else becomes its backend parent. */
    method SetParent(g: Graphics, p: Comp)
      modifies this`parent, g`log
      ensures parent == Some(p)
      ensures g.log == old(Appended(g.log, SetParentOps(CameraC(this), p)))
    {
      parent := Some(p);
      if p.SceneC? {
        p.scene.AddChild(g, CameraC(this));
      } else {
        g.Emit([CameraSetParent(camera, ObjectOf(p))]);
      }
    }

    /** The backend camera is handed the spatial's own position and rotation arrays. */
    method SetSpatial(g: Graphics, s: Spatial)
      modifies this`spatial, g`log
      ensures spatial == Some(s)
      ensures g.log == old(g.log) + [SharePose(camera, s.position, s.rotation)]
    {
      spatial := Some(s);
      g.Emit([SharePose(camera, s.position, s.rotation)]);
    }

    method SetTarget(g: Graphics, target: Vec3)
      modifies g`log
      ensures g.log == old(g.log) + [SetCameraTarget(camera, target)]
    {
      g.Emit([SetCameraTarget(camera, target)]);
    }
  }

  class Model {
    const node: Handle
    var spatial: Option<Spatial>
    var mesh: Option<MeshId>
    var material: Option<MaterialId>
    var parent: Option<Comp>

    /** A scene object created with the mesh; a missing spatial, mesh or material is null. */
    constructor (g: Graphics, mesh: Option<MeshId>, spatial: Option<Spatial>, material: Option<MaterialId>)
      modifies g
      ensures node == old(g.next) && g.next == old(g.next) + 1
      ensures g.log == old(g.log) + [NewObject(node, mesh)]
      ensures this.mesh == mesh && this.spatial == spatial && this.material == material
      ensures parent.None?
    {
      var h := g.Create((h: Handle) => NewObject(h, mesh));
      node := h;
      this.spatial := spatial;
      this.mesh := mesh;
      this.material := material;
      parent := None;
    }

    method AddChild(g: Graphics, child: Comp)
      modifies g`log
      ensures g.log == old(Appended(g.log, AddChildOps(ModelC(this), child)))
    {
      if child.CameraC? {
        g.Emit([CameraSetParent(child.camera.camera, Some(node))]);
      } else {
        g.Emit([BindChild(node, ObjectOf(child))]);
      }
    }

    /** Records the parent, then asks it to add this model as a child. */
    method SetParent(g: Graphics, p: Comp) returns (r: Outcome<Failure>)
      modifies this`parent, g`log
      ensures parent == Some(p)
      ensures r == old(OutcomeOf(SetParentOps(ModelC(this), p)))
      ensures g.log == old(Appended(g.log, SetParentOps(ModelC(this), p)))
    {
      parent := Some(p);
      r := DispatchAddChild(g, p, ModelC(this));
    }

    /** The scene object is handed the spatial's own position and rotation arrays. */
    method SetSpatial(g: Graphics, s: Spatial)
      modifies this`spatial, g`log
      ensures spatial == Some(s)
      ensures g.log == old(g.log) + [SharePose(node, s.position, s.rotation)]
    {
      spatial := Some(s);
      g.Emit([SharePose(node, s.position, s.rotation)]);
    }

    method SetMesh(g: Graphics, m: Option<MeshId>)
      modifies this`mesh, g`log
      ensures mesh == m
      ensures g.log == old(g.log) + [SetObjectMesh(node, m)]
    {
      mesh := m;
      g.Emit([SetObjectMesh(node, m)]);
    }

    /** Only the field changes; the backend is not told. */
    method SetMaterial(m: Option<MaterialId>)
      modifies this`material
      ensures material == m
    {
      material := m;
    }
  }

  /** `parent.addChild(child)`, dispatched on the parent's kind. */
  method DispatchAddChild(g: Graphics, parent: Comp, child: Comp) returns (r: Outcome<Failure>)
    modifies g`log
    ensures r == old(OutcomeOf(AddChildOps(parent, child)))
    ensures g.log == old(Appended(g.log, AddChildOps(parent, child)))
  {
    match parent
    case SpatialC(s) => s.AddChild(g, child); r := Pass;
    case SceneC(sc) => sc.AddChild(g, child); r := Pass;
    case CameraC(cam) => r := cam.AddChild(g, child);
    case ModelC(m) => m.AddChild(g, child); r := Pass;
  }

  /** `self.setParent(parent)`, dispatched on the component's own kind. */
  method DispatchSetParent(g: Graphics, self: Comp, parent: Comp) returns (r: Outcome<Failure>)
    modifies Ref(self), g`log
    ensures r == old(OutcomeOf(SetParentOps(self, parent)))
    ensures g.log == old(Appended(g.log, SetParentOps(self, parent)))
    ensures !self.SceneC? ==> ParentOf(self) == Some(parent)
    ensures self.SceneC? ==> ParentOf(self) == old(ParentOf(self))
  {
    match self
    case SpatialC(s) => r := s.SetParent(g, parent);
    case SceneC(sc) => sc.SetParent(g, parent); r := Pass;
    case CameraC(cam) => cam.SetParent(g, parent); r := Pass;
    case ModelC(m) => r := m.SetParent(g, parent);
  }

  function ParentOf(c: Comp): Option<Comp>
    reads Ref(c)
  {
    match c
    case SpatialC(s) => s.parent
    case SceneC(sc) => sc.parent
    case CameraC(cam) => cam.parent
    case ModelC(m) => m.parent
  }

  /**
   * `a.setParent(b)` makes exactly the backend calls of `b.addChild(a)`,
   * except for a scene (which ignores `setParent`) and for a camera under a
   * spatial or another camera (which re-parents the backend camera, where
   * `addChild` would bind the camera's missing scene object).
   */
  lemma SetParentMirrorsAddChild(self: Comp, parent: Comp)
    ensures SetParentOps(self, parent) == AddChildOps(parent, self) <==>
      !self.SceneC? && !(self.CameraC? && (parent.SpatialC? || parent.CameraC?))
  {
    if self.SceneC? {
      assert AddChildOps(parent, self) != Ok([]);
    }
  }

  /**
   * A scene with a spatial under its root, a model under that spatial and a
   * camera posed by the spatial: the bind calls name the handles in creation
   * order.
   */
  method ComposeScene() returns (binds: seq<Op>)
    ensures |binds| == 4
    ensures binds[0] == BindChild(1, Some(2))
    ensures binds[1] == BindChild(2, Some(3))
    ensures binds[2].SharePose? && binds[2].target == 4
    ensures binds[3] == BindCamera(0, 4)
  {
    var g := new Graphics();
    var scene := new Scene(g);
    var s := new Spatial(g, None, None);
    var m := new Model(g, Some(7), None, None);
    var cam := new Camera(g, None, None);
    var start := g.log;
    assert |start| == 8;
    var r := s.SetParent(g, SceneC(scene));
    assert g.log == start + [BindChild(1, Some(2))];
    r := m.SetParent(g, SpatialC(s));
    assert g.log == start + [BindChild(1, Some(2)), BindChild(2, Some(3))];
    cam.SetSpatial(g, s);
    var pose := SharePose(4, s.position, s.rotation);
    assert g.log == start + [BindChild(1, Some(2)), BindChild(2, Some(3)), pose];
    cam.SetParent(g, SceneC(scene));
    assert g.log == start + [BindChild(1, Some(2)), BindChild(2, Some(3)), pose, BindCamera(0, 4)];
    binds := g.log[8..];
  }

  /** A spatial cannot be put under a camera that has no spatial yet; the backend is not called. */
  method OrphanUnderBareCamera() returns (orphan: Outcome<Failure>, calls: nat)
    ensures orphan == Fail(NullSpatial) && calls == 0
  {
    var g := new Graphics();
    var bare := new Camera(g, None, None);
    var loose := new Spatial(g, None, None);
    var before := |g.log|;
    orphan := loose.SetParent(g, CameraC(bare));
    calls := |g.log| - before;
  }

  /**
   * The array handed to the camera is the spatial's own position array, so a
   * later write through the spatial's setter is visible in it.
   */
  method CameraGetsSpatialArray() returns (seen: seq<int>)
    ensures seen == [1, 2, 3]
  {
    var g := new Graphics();
    var s := new Spatial(g, None, None);
    var cam := new Camera(g, None, None);
    cam.SetSpatial(g, s);
    var handed := g.log[|g.log| - 1];
    s.SetPosition(Vec3(1, 2, 3));
    seen := handed.position[..];
  }
}

=== FILE: entity.dfy ===
/**
 * Entities: identity tokens with a facade over the Messenger. Ids come from a
 * counter shared by every entity (an explicit allocator object here).
 * Listening through an entity always registers a persistent listener,
 * because the forwarded flag is `options.persistent || true`.
 */
module Entities {
  import opened Wrappers
  import opened ForIn
  import opened Messaging

  /** The process-wide counter of entity ids. */
  class EntityCounter {
    var nextEntityId: nat

    constructor ()
      ensures nextEntityId == 0
    {
      nextEntityId := 0;
    }
  }

  class Entity {
    const id: EntityId

    /** A new entity takes the counter's next id and advances the counter. */
    constructor (counter: EntityCounter)
      modifies counter
      ensures id == old(counter.nextEntityId)
      ensures counter.nextEntityId == old(counter.nextEntityId) + 1
    {
      id := counter.nextEntityId;
      counter.nextEntityId := counter.nextEntityId + 1;
    }

    /** `persistent || true`: whatever the caller passes, the listener is persistent. */
    static function PersistentFlag(persistent: Option<bool>): (r: bool)
      ensures r
    {
      persistent.GetOr(false) || true
    }

    /** Listen for `event` on this entity's behalf; parameters default to none. */
    method Listen<V>(m: Messenger<V>, event: string, callback: CallbackId,
                     parameters: Option<seq<V>>, persistent: Option<bool>)
      modifies m
      ensures m.callbacks == Listened(old(m.callbacks), event, id,
                                      Listener(callback, parameters.GetOr([]), true))
    {
      m.Listen(event, id, callback, parameters.GetOr([]), PersistentFlag(persistent));
    }

    method Ignore<V>(m: Messenger<V>, event: string)
      modifies m
      ensures m.callbacks == Ignored(old(m.callbacks), event, id)
    {
      m.Ignore(event, id);
    }

    /** Send `event` to every listener; parameters default to none. */
    method Send<V>(m: Messenger<V>, event: string, parameters: Option<seq<V>>)
      returns (invoked: seq<Invocation<V>>)
      modifies m
      ensures (m.callbacks, invoked) == Sent(old(m.callbacks), event, parameters.GetOr([]))
    {
      invoked := m.Send(event, parameters.GetOr([]));
    }
  }

  /**
   * A listener registered through an entity, even one asking not to persist,
   * is called by every `send` of its event until the entity ignores it.
   */
  method EntityListenerPersists() returns (first: seq<Invocation<int>>, second: seq<Invocation<int>>)
    ensures first == [Invocation(0, 7, [1, 2])]
    ensures second == [Invocation(0, 7, [3])]
  {
    var counter := new EntityCounter();
    var e := new Entity(counter);
    var m := new Messenger<int>();
    var l := Listener(7, [], true);
    e.Listen(m, "tick", 7, None, Some(false));
    assert m.callbacks == map["tick" := map[0 := l]];
    AscendingSingleton(0);
    assert map[0 := l].Keys == {0};
    assert Persistent(map[0 := l]) == map[0 := l];
    first := e.Send(m, "tick", Some([1, 2]));
    assert first == Calls(map[0 := l], [0], [1, 2]);
    assert [] + [1, 2] == [1, 2];
    second := e.Send(m, "tick", Some([3]));
    assert second == Calls(map[0 := l], [0], [3]);
    assert [] + [3] == [3];
  }

  /** Two entities drawn from one counter have different ids. */
  method EntityIdsDiffer() returns (a: EntityId, b: EntityId)
    ensures a == 0 && b == 1
  {
    var counter := new EntityCounter();
    var e1 := new Entity(counter);
    var e2 := new Entity(counter);
    a, b := e1.id, e2.id;
  }
}

=== FILE: event_names.dfy ===
/**
 * Translation of raw input signals (a key code, a mouse button or a wheel
 * detail, plus the four modifier flags) into the canonical event names that
 * the Messenger dispatches: the components of the name are collected in a
 * list and joined with '-'.
 */
module EventNames {

  /** The four modifier flags carried by every DOM input event. */
  datatype Modifiers = Modifiers(shift: bool, ctrl: bool, alt: bool, meta: bool)

  const NoModifiers := Modifiers(false, false, false, false)

  predicate StartsWith(s: string, prefix: string) {
    |prefix| <= |s| && s[..|prefix|] == prefix
  }

  predicate EndsWith(s: string, suffix: string) {
    |suffix| <= |s| && s[|s| - |suffix|..] == suffix
  }

  // ---------------------------------------------------------------------------
  // Array.prototype.join('-')
  // ---------------------------------------------------------------------------

  /** `parts.join('-')`: the parts separated by single hyphens. */
  function Join(parts: seq<string>): (r: string)
    ensures parts == [] ==> r == ""
    ensures |parts| == 1 ==> r == parts[0]
    ensures |parts| >= 2 ==> StartsWith(r, parts[0] + "-") && EndsWith(r, "-" + parts[|parts| - 1])
    decreases |parts|
  {
    if parts == [] then ""
    else if |parts| == 1 then parts[0]
    else parts[0] + "-" + Join(parts[1..])
  }

  /** Joining two non-empty lists is joining their joins. */
  lemma {:induction false} JoinAppend(xs: seq<string>, ys: seq<string>)
    requires xs != [] && ys != []
    ensures Join(xs + ys) == Join(xs) + "-" + Join(ys)
    decreases |xs|
  {
    if |xs| == 1 {
      assert (xs + ys)[1..] == ys;
    } else {
      assert (xs + ys)[1..] == xs[1..] + ys;
      JoinAppend(xs[1..], ys);
    }
  }

  // ---------------------------------------------------------------------------
  // '<' + code + '>': the decimal text of a number
  // ---------------------------------------------------------------------------

  predicate IsDigit(c: char) {
    '0' <= c <= '9'
  }

  predicate AllDigits(s: string) {
    forall i :: 0 <= i < |s| ==> IsDigit(s[i])
  }

  function DigitChar(d: nat): char
    requires d < 10
  {
    ('0' as int + d) as char
  }

  /** Decimal digits of a natural number, most significant first, no leading zero. */
  function NatDigits(n: nat): string
    decreases n
  {
    if n < 10 then [DigitChar(n)] else NatDigits(n / 10) + [DigitChar(n % 10)]
  }

  /** The value of a string of decimal digits. */
  function DigitsValue(s: string): nat
    requires AllDigits(s)
    decreases |s|
  {
    if s == [] then 0
    else DigitsValue(s[..|s| - 1]) * 10 + (s[|s| - 1] as int - '0' as int)
  }

  /**
   * How JavaScript prints an integer number below 10^21 in magnitude: an
   * optional '-' and its digits. (Larger numbers print in exponent form.)
   */
  function Decimal(n: int): (r: string)
    ensures |r| > 0 && (r[0] == '-' <==> n < 0)
    ensures n < 0 ==> AllDigits(r[1..])
    ensures n >= 0 ==> AllDigits(r)
    ensures var d := if n < 0 then r[1..] else r;
      |d| > 0 && AllDigits(d) && DigitsValue(d) == (if n < 0 then -n else n) && (d[0] == '0' ==> |d| == 1)
  {
    NatDigitsRoundTrip(if n < 0 then -n else n);
    if n < 0 then "-" + NatDigits(-n)
    else
      assert IsDigit(NatDigits(n)[0]);
      NatDigits(n)
  }

  /** Reading back the digits of `n` gives `n`, and only zero is written with a leading '0'. */
  lemma {:induction false} NatDigitsRoundTrip(n: nat)
    ensures |NatDigits(n)| > 0 && AllDigits(NatDigits(n))
    ensures DigitsValue(NatDigits(n)) == n
    ensures NatDigits(n)[0] == '0' ==> n == 0
    decreases n
  {
    if n >= 10 {
      NatDigitsRoundTrip(n / 10);
      var s := NatDigits(n);
      assert s[..|s| - 1] == NatDigits(n / 10);
    }
  }

  /** Different integers print differently. */
  lemma DecimalInjective(a: int, b: int)
    requires Decimal(a) == Decimal(b)
    ensures a == b
  {
    NatDigitsRoundTrip(if a < 0 then -a else a);
    NatDigitsRoundTrip(if b < 0 then -b else b);
    if a < 0 {
      assert NatDigits(-a) == Decimal(a)[1..] == NatDigits(-b);
    }
  }

  /** `'<' + code + '>'`: the name of a code that has no symbolic name. */
  function Bracketed(code: int): (r: string)
    ensures |r| >= 3 && r[0] == '<' && r[|r| - 1] == '>'
  {
    NatDigitsRoundTrip(if code < 0 then -code else code);
    "<" + Decimal(code) + ">"
  }

  lemma BracketedInjective(a: int, b: int)
    requires Bracketed(a) == Bracketed(b)
    ensures a == b
  {
    assert Decimal(a) == Bracketed(a)[1..|Bracketed(a)| - 1];
    assert Decimal(b) == Bracketed(b)[1..|Bracketed(b)| - 1];
    DecimalInjective(a, b);
  }

  // ---------------------------------------------------------------------------
  // Modifier prefixes
  // ---------------------------------------------------------------------------

  /** Position of a modifier name in the fixed order shift, control, alt, meta. */
  function ModifierRank(name: string): nat {
    if name == "shift" then 0
    else if name == "control" then 1
    else if name == "alt" then 2
    else 3
  }

  predicate IsModifierName(name: string) {
    name == "shift" || name == "control" || name == "alt" || name == "meta"
  }

  /**
   * The modifier components pushed before the body: each name is present
   * exactly when its flag is set, and they appear in the fixed order.
   */
  function ModifierNames(shift: bool, control: bool, alt: bool, meta: bool): (r: seq<string>)
    ensures ("shift" in r <==> shift) && ("control" in r <==> control)
    ensures ("alt" in r <==> alt) && ("meta" in r <==> meta)
    ensures forall i :: 0 <= i < |r| ==> IsModifierName(r[i])
    ensures forall i :: 0 <= i < |r| - 1 ==> ModifierRank(r[i]) < ModifierRank(r[i + 1])
    ensures r == [] <==> !(shift || control || alt || meta)
  {
    (if shift then ["shift"] else [])
    + (if control then ["control"] else [])
    + (if alt then ["alt"] else [])
    + (if meta then ["meta"] else [])
  }

  /** The flags held during a mouse event. */
  function HeldModifiers(m: Modifiers): (r: seq<string>)
    ensures ("shift" in r <==> m.shift) && ("control" in r <==> m.ctrl)
    ensures ("alt" in r <==> m.alt) && ("meta" in r <==> m.meta)
    ensures r == [] <==> m == NoModifiers
  {
    ModifierNames(m.shift, m.ctrl, m.alt, m.meta)
  }

  // ---------------------------------------------------------------------------
  // Keyboard events
  // ---------------------------------------------------------------------------

  /** Codes of the bare modifier keys (meta is reported as 0 or 224). */
  predicate IsModifierKey(code: int) {
    code == 0 || (16 <= code <= 18) || code == 224
  }

  /** A keystroke also counts as its own modifier: 16 shift, 17 control, 18 alt, 0 meta. */
  function KeyModifiers(code: int, m: Modifiers): (r: seq<string>)
    ensures ("shift" in r <==> m.shift || code == 16) && ("control" in r <==> m.ctrl || code == 17)
    ensures ("alt" in r <==> m.alt || code == 18) && ("meta" in r <==> m.meta || code == 0)
  {
    ModifierNames(m.shift || code == 16, m.ctrl || code == 17, m.alt || code == 18, m.meta || code == 0)
  }

  /** `String.fromCharCode(code).toLocaleLowerCase()` for a code in 48..90. */
  function LowerChar(code: int): (c: char)
    requires 48 <= code <= 90
    ensures 48 <= c as int <= 64 || 97 <= c as int <= 122
  {
    if 65 <= code <= 90 then (code + 32) as char else code as char
  }

  /** The body component of a key name; a bare modifier key has none. */
  function KeyBody(code: int): (r: seq<string>)
    ensures r == [] <==> IsModifierKey(code)
    ensures |r| <= 1
  {
    if IsModifierKey(code) then []
    else if code == 27 then ["escape"]
    else if code == 37 then ["larrow"]
    else if code == 38 then ["uarrow"]
    else if code == 39 then ["rarrow"]
    else if code == 40 then ["darrow"]
    else if 48 <= code <= 90 then [[LowerChar(code)]]
    else [Bracketed(code)]
  }

  /**
   * The event name of a key going `mode` ("down" or "up"). It always ends with
   * the mode, and with "-" + mode except for key 224 pressed alone, which
   * contributes no component at all.
   */
  function ConvertKeyEvent(code: int, m: Modifiers, mode: string): (r: string)
    ensures EndsWith(r, mode)
    ensures (code == 224 && m == NoModifiers) ==> r == mode
    ensures !(code == 224 && m == NoModifiers) ==> EndsWith(r, "-" + mode)
  {
    var front := KeyModifiers(code, m) + KeyBody(code);
    if front == [] then
      assert [mode] == front + [mode];
      mode
    else
      JoinAppend(front, [mode]);
      Join(front + [mode])
  }

  /** With any modifier active, the key name starts with those modifiers in order. */
  lemma KeyNameStartsWithModifiers(code: int, m: Modifiers, mode: string)
    requires KeyModifiers(code, m) != []
    ensures StartsWith(ConvertKeyEvent(code, m, mode), Join(KeyModifiers(code, m)) + "-")
  {
    var mods := KeyModifiers(code, m);
    var rest := KeyBody(code) + [mode];
    assert mods + KeyBody(code) + [mode] == mods + rest;
    JoinAppend(mods, rest);
  }

  /** Two different bodies of ordinary keys never coincide. */
  lemma KeyBodyInjective(a: int, b: int)
    requires !IsModifierKey(a) && !IsModifierKey(b)
    requires KeyBody(a)[0] == KeyBody(b)[0]
    ensures a == b
  {
    var s := KeyBody(a)[0];
    if 48 <= a <= 90 && 48 <= b <= 90 {
      assert LowerChar(a) == s[0] == LowerChar(b);
    } else if !(48 <= a <= 90 || a in {27, 37, 38, 39, 40}) && !(48 <= b <= 90 || b in {27, 37, 38, 39, 40}) {
      BracketedInjective(a, b);
    }
  }

  /** The modifier part of a key name, including its trailing hyphen. */
  function ModifierPrefix(mods: seq<string>): string {
    if mods == [] then "" else Join(mods) + "-"
  }

  /** Joining some names, a body and a mode: the names' prefix, the body, '-' and the mode. */
  lemma JoinShape(mods: seq<string>, body: string, mode: string)
    ensures Join(mods + [body, mode]) == (if mods == [] then "" else Join(mods) + "-") + body + "-" + mode
  {
    assert Join([body, mode]) == body + "-" + mode by {
      assert [body, mode][1..] == [mode];
    }
    if mods != [] {
      JoinAppend(mods, [body, mode]);
    } else {
      assert mods + [body, mode] == [body, mode];
    }
  }

  /** An ordinary key's name is its modifier prefix, its body, '-' and the mode. */
  lemma KeyNameShape(code: int, m: Modifiers, mode: string)
    requires !IsModifierKey(code)
    ensures ConvertKeyEvent(code, m, mode) == ModifierPrefix(KeyModifiers(code, m)) + KeyBody(code)[0] + "-" + mode
  {
    var mods, body := KeyModifiers(code, m), KeyBody(code);
    assert mods + body + [mode] == mods + [body[0], mode];
    JoinShape(mods, body[0], mode);
  }

  /**
   * Ordinary keys (not bare modifiers) get distinct names: with the same held
   * modifiers and mode, equal names mean equal key codes.
   */
  lemma KeyNameDeterminesKey(a: int, b: int, m: Modifiers, mode: string)
    requires !IsModifierKey(a) && !IsModifierKey(b)
    requires ConvertKeyEvent(a, m, mode) == ConvertKeyEvent(b, m, mode)
    ensures a == b
  {
    assert KeyModifiers(a, m) == HeldModifiers(m) == KeyModifiers(b, m);
    KeyNameShape(a, m, mode);
    KeyNameShape(b, m, mode);
    MiddleCancels(ModifierPrefix(KeyModifiers(a, m)), KeyBody(a)[0], KeyBody(b)[0], mode);
    KeyBodyInjective(a, b);
  }

  /**
   * A bare modifier key's name is the active modifiers' prefix and the mode,
   * with nothing between them.
   */
  lemma BareModifierKeyName(code: int, m: Modifiers, mode: string)
    requires IsModifierKey(code)
    ensures ConvertKeyEvent(code, m, mode) == ModifierPrefix(KeyModifiers(code, m)) + mode
  {
    var mods := KeyModifiers(code, m);
    assert mods + KeyBody(code) == mods;
    if mods != [] {
      JoinAppend(mods, [mode]);
    }
  }

  /** Two names with the same prefix and mode have the same body. */
  lemma MiddleCancels(p: string, x: string, y: string, mode: string)
    requires p + x + "-" + mode == p + y + "-" + mode
    ensures x == y
  {
    var s := p + x + "-" + mode;
    assert x == s[|p|..|s| - |mode| - 1];
    assert y == s[|p|..|s| - |mode| - 1];
  }

  // ---------------------------------------------------------------------------
  // Mouse buttons
  // ---------------------------------------------------------------------------

  /** Button 0 is mouse1, 2 is mouse2, 1 is mouse3; others are bracketed codes. */
  function ButtonBody(button: int): (r: string)
    ensures |r| > 0
  {
    if button == 0 then "mouse1"
    else if button == 2 then "mouse2"
    else if button == 1 then "mouse3"
    else Bracketed(button)
  }

  /** Different buttons get different bodies. */
  lemma ButtonBodyInjective(a: int, b: int)
    requires ButtonBody(a) == ButtonBody(b)
    ensures a == b
  {
    if a !in {0, 1, 2} && b !in {0, 1, 2} {
      BracketedInjective(a, b);
    }
  }

  /**
   * The event name of a mouse button going `mode`: the held modifiers in
   * order, the button body, and always the suffix "-" + mode.
   */
  function ConvertMouseButtonEvent(button: int, m: Modifiers, mode: string): (r: string)
    ensures EndsWith(r, ButtonBody(button) + "-" + mode)
    ensures HeldModifiers(m) != [] ==> StartsWith(r, Join(HeldModifiers(m)) + "-")
    ensures HeldModifiers(m) == [] ==> r == ButtonBody(button) + "-" + mode
    ensures r == ModifierPrefix(HeldModifiers(m)) + ButtonBody(button) + "-" + mode
  {
    var mods := HeldModifiers(m);
    var tail := [ButtonBody(button), mode];
    assert Join(tail) == ButtonBody(button) + "-" + mode;
    assert mods + [ButtonBody(button)] + [mode] == mods + tail;
    JoinShape(mods, ButtonBody(button), mode);
    if mods == [] then
      Join(mods + tail)
    else
      JoinAppend(mods, tail);
      Join(mods + tail)
  }

  // ---------------------------------------------------------------------------
  // Mouse wheel
  // ---------------------------------------------------------------------------

  /** Scrolling up (negative detail) or down (positive); no body for detail 0. */
  function WheelBody(detail: int): (r: seq<string>)
    ensures |r| <= 1 && (r == [] <==> detail == 0)
    ensures r != [] ==> (r[0] == "wheel-up" <==> detail < 0) && (r[0] == "wheel-down" <==> detail > 0)
  {
    if detail < 0 then ["wheel-up"]
    else if detail > 0 then ["wheel-down"]
    else []
  }

  /**
   * The event name of a wheel scroll: the held modifiers and the direction,
   * with no mode suffix. With no modifier and a zero detail it is empty.
   */
  function ConvertMouseWheelEvent(detail: int, m: Modifiers): (r: string)
    ensures r == "" <==> (detail == 0 && m == NoModifiers)
    ensures detail < 0 ==> EndsWith(r, "wheel-up")
    ensures detail > 0 ==> EndsWith(r, "wheel-down")
    ensures detail == 0 ==> r == Join(HeldModifiers(m))
    ensures detail != 0 ==> r == ModifierPrefix(HeldModifiers(m)) + WheelBody(detail)[0]
  {
    var mods := HeldModifiers(m);
    var body := WheelBody(detail);
    if mods != [] && body != [] then
      JoinAppend(mods, body);
      Join(mods + body)
    else if mods != [] then
      assert mods + body == mods;
      assert Join(mods) != "" by { assert |Join(mods)| > 0 by { JoinNonEmpty(mods); } }
      Join(mods + body)
    else
      assert mods + body == body;
      Join(mods + body)
  }

  /** Joining modifier names never yields the empty string. */
  lemma {:induction false} JoinNonEmpty(parts: seq<string>)
    requires parts != []
    requires forall i :: 0 <= i < |parts| ==> IsModifierName(parts[i])
    ensures |Join(parts)| > 0
    decreases |parts|
  {
    if |parts| > 1 {
      JoinNonEmpty(parts[1..]);
    }
  }

  // ---------------------------------------------------------------------------
  // Concrete names
  // ---------------------------------------------------------------------------

  /** Holding shift while pressing 'A' (code 65). */
  lemma ShiftADown()
    ensures ConvertKeyEvent(65, Modifiers(true, false, false, false), "down") == "shift-a-down"
  {
    assert LowerChar(65) == 'a';
    assert KeyModifiers(65, Modifiers(true, false, false, false)) + KeyBody(65) + ["down"] == ["shift", "a", "down"];
    assert Join(["a", "down"]) == "a-down";
  }

  /** Releasing the left arrow (code 37). */
  lemma LeftArrowUp()
    ensures ConvertKeyEvent(37, NoModifiers, "up") == "larrow-up"
  {
    assert KeyModifiers(37, NoModifiers) + KeyBody(37) + ["up"] == ["larrow", "up"];
    assert Join(["larrow", "up"]) == "larrow-up";
  }

  /** Pressing a bare modifier key names only the modifier and the mode. */
  lemma BareModifierKeys(mode: string)
    ensures ConvertKeyEvent(16, NoModifiers, mode) == "shift-" + mode
    ensures ConvertKeyEvent(17, NoModifiers, mode) == "control-" + mode
    ensures ConvertKeyEvent(18, NoModifiers, mode) == "alt-" + mode
    ensures ConvertKeyEvent(0, NoModifiers, mode) == "meta-" + mode
  {
    assert KeyModifiers(16, NoModifiers) + KeyBody(16) + [mode] == ["shift", mode];
    assert KeyModifiers(17, NoModifiers) + KeyBody(17) + [mode] == ["control", mode];
    assert KeyModifiers(18, NoModifiers) + KeyBody(18) + [mode] == ["alt", mode];
    assert KeyModifiers(0, NoModifiers) + KeyBody(0) + [mode] == ["meta", mode];
    assert Join(["shift", mode]) == "shift-" + mode;
    assert Join(["control", mode]) == "control-" + mode;
    assert Join(["alt", mode]) == "alt-" + mode;
    assert Join(["meta", mode]) == "meta-" + mode;
  }

  /** The primary mouse button going down. */
  lemma Mouse1Down()
    ensures ConvertMouseButtonEvent(0, NoModifiers, "down") == "mouse1-down"
  {
  }

  /** Scrolling up by three lines names no mode. */
  lemma WheelUp()
    ensures ConvertMouseWheelEvent(-3, NoModifiers) == "wheel-up"
  {
  }
}

=== FILE: for_in.dfy ===
/**
 * The order in which a JavaScript `for ... in` loop visits the own keys of a
 * plain object whose keys are all array indices, that is integers below
 * 2^32 - 1 (entity ids, task ids): ascending numeric order. Both the listener buckets and the task table are
 * such objects.
 */
module ForIn {

  /** `m` is the least element of `s`. */
  predicate IsLeast(m: nat, s: set<nat>) {
    m in s && forall x :: x in s ==> m <= x
  }

  /** Every non-empty set of naturals has a least element. */
  lemma {:induction false} LeastExists(s: set<nat>)
    requires s != {}
    ensures exists m :: IsLeast(m, s)
    decreases |s|
  {
    var x :| x in s;
    if s == {x} {
      assert IsLeast(x, s);
    } else {
      LeastExists(s - {x});
      var m :| IsLeast(m, s - {x});
      assert s == (s - {x}) + {x};
      if x < m {
        assert IsLeast(x, s);
      } else {
        assert IsLeast(m, s);
      }
    }
  }

  /** The least element is unique. */
  lemma LeastUnique(m: nat, n: nat, s: set<nat>)
    requires IsLeast(m, s) && IsLeast(n, s)
    ensures m == n
  {
  }

  ghost function Least(s: set<nat>): (m: nat)
    requires s != {}
    ensures IsLeast(m, s)
  {
    LeastExists(s);
    var m :| IsLeast(m, s); m
  }

  /** The keys of `s` in the order a `for ... in` loop visits them. */
  ghost function Ascending(s: set<nat>): seq<nat>
    decreases |s|
  {
    if s == {} then []
    else
      var m := Least(s);
      [m] + Ascending(s - {m})
  }

  /** The visiting order lists every key exactly once, in strictly ascending order. */
  lemma {:induction false} AscendingOrder(s: set<nat>)
    ensures |Ascending(s)| == |s|
    ensures forall i :: 0 <= i < |Ascending(s)| ==> Ascending(s)[i] in s
    ensures forall x :: x in s ==> x in Ascending(s)
    ensures forall i, j :: 0 <= i < j < |Ascending(s)| ==> Ascending(s)[i] < Ascending(s)[j]
    decreases |s|
  {
    if s != {} {
      var m := Least(s);
      AscendingOrder(s - {m});
      var r := Ascending(s);
      assert r == [m] + Ascending(s - {m});
      forall x | x in s ensures x in r {
        if x != m {
          assert x in s - {m};
        }
      }
    }
  }

  /** Visiting the least key first leaves the rest of the keys in order. */
  lemma AscendingStep(s: set<nat>, m: nat)
    requires IsLeast(m, s)
    ensures Ascending(s) == [m] + Ascending(s - {m})
  {
    LeastUnique(m, Least(s), s);
  }

  /** A single key is visited alone. */
  lemma AscendingSingleton(x: nat)
    ensures Ascending({x}) == [x]
  {
    assert IsLeast(x, {x});
    AscendingStep({x}, x);
    assert {x} - {x} == {};
  }
}

=== FILE: messenger.dfy ===
/**
 * The Messenger: a table from event name to a bucket of listeners, one per
 * entity id. `listen` fills a slot, `ignore` empties it, and `send` calls
 * every listener of an event with its registered parameters followed by the
 * sent ones, dropping the listeners that are not persistent.
 *
 * Callbacks are opaque: a listener holds a token naming its callback, and
 * `send` returns the calls it makes, in order, as `Invocation` records.
 * Argument values are of an arbitrary type `V`.
 */
module Messaging {
  import opened Wrappers
  import opened ForIn
  import opened EventNames

  type EntityId = nat
  type CallbackId = nat

  /** One registration: the callback (bound to its entity), its parameters, persistence. */
  datatype Listener<V> = Listener(callback: CallbackId, parameters: seq<V>, persistent: bool)

  /** One call made by `send`: the callback, the entity it is bound to, its arguments. */
  datatype Invocation<V> = Invocation(receiver: EntityId, callback: CallbackId, args: seq<V>)

  type Bucket<V> = map<EntityId, Listener<V>>
  type Table<V> = map<string, Bucket<V>>

  /** The registration of `id` for `event`, if any. */
  function Lookup<V>(t: Table<V>, event: string, id: EntityId): Option<Listener<V>> {
    if event in t && id in t[event] then Some(t[event][id]) else None
  }

  // ---------------------------------------------------------------------------
  // The table operations, as functions of the table
  // ---------------------------------------------------------------------------

  /** The table after `listen`: the slot holds `l`, every other slot is unchanged. */
  function Listened<V>(t: Table<V>, event: string, id: EntityId, l: Listener<V>): (r: Table<V>)
    ensures Lookup(r, event, id) == Some(l)
    ensures forall e, i :: (e != event || i != id) ==> Lookup(r, e, i) == Lookup(t, e, i)
    ensures r.Keys == t.Keys + {event}
  {
    var bucket := if event in t then t[event] else map[];
    t[event := bucket[id := l]]
  }

  /**
   * The table after `ignore`: the slot is empty, every other slot is unchanged,
   * and the event's bucket is dropped when nothing is left in it.
   */
  function Ignored<V>(t: Table<V>, event: string, id: EntityId): (r: Table<V>)
    ensures Lookup(r, event, id) == None
    ensures forall e, i :: (e != event || i != id) ==> Lookup(r, e, i) == Lookup(t, e, i)
    ensures event in r <==> event in t && t[event].Keys - {id} != {}
    ensures forall e :: e != event ==> (e in r <==> e in t)
    ensures event !in t ==> r == t
  {
    if event in t then
      var bucket := t[event] - {id};
      assert bucket.Keys == t[event].Keys - {id};
      if bucket.Keys == {} then
        assert t[event].Keys <= {id};
        t - {event}
      else t[event := bucket]
    else t
  }

  /** The listeners of a bucket that survive a `send`. */
  function Persistent<V>(b: Bucket<V>): (r: Bucket<V>)
    ensures forall id :: id in r <==> id in b && b[id].persistent
    ensures forall id :: id in r ==> r[id] == b[id]
  {
    map id | id in b && b[id].persistent :: b[id]
  }

  /** A bucket part-way through `send`: the listeners not yet visited, and the persistent ones. */
  function Pending<V>(b: Bucket<V>, unvisited: set<EntityId>): Bucket<V> {
    map id | id in b && (id in unvisited || b[id].persistent) :: b[id]
  }

  /** Visiting one more listener drops it from the bucket unless it is persistent. */
  lemma PendingStep<V>(b: Bucket<V>, unvisited: set<EntityId>, id: EntityId)
    requires id in unvisited && id in b
    ensures Pending(b, unvisited - {id}) ==
      if b[id].persistent then Pending(b, unvisited) else Pending(b, unvisited) - {id}
  {
  }

  /** The calls made to the listeners `ids` of a bucket, in that order. */
  function Calls<V>(b: Bucket<V>, ids: seq<EntityId>, sent: seq<V>): seq<Invocation<V>>
    requires forall k :: 0 <= k < |ids| ==> ids[k] in b
  {
    seq(|ids|, k requires 0 <= k < |ids| => Invocation(ids[k], b[ids[k]].callback, b[ids[k]].parameters + sent))
  }

  /** Calling one more listener appends its call. */
  lemma CallsStep<V>(b: Bucket<V>, ids: seq<EntityId>, id: EntityId, sent: seq<V>)
    requires forall k :: 0 <= k < |ids| ==> ids[k] in b
    requires id in b
    ensures Calls(b, ids + [id], sent) == Calls(b, ids, sent) + [Invocation(id, b[id].callback, b[id].parameters + sent)]
  {
  }

  /**
   * `send` as a function: the new table and the calls made, in ascending
   * entity order. Afterwards the non-persistent listeners of the event are
   * gone and nothing else has changed; the bucket itself stays, even when it
   * is left empty. An event without a bucket calls nothing and changes nothing.
   */
  ghost function Sent<V>(t: Table<V>, event: string, sent: seq<V>): (r: (Table<V>, seq<Invocation<V>>))
    ensures event !in t ==> r == (t, [])
    ensures r.0.Keys == t.Keys
    ensures forall e, i :: (Lookup(r.0, e, i) ==
      if e == event && Lookup(t, e, i).Some? && !Lookup(t, e, i).value.persistent then None else Lookup(t, e, i))
  {
    if event in t then
      var b := t[event];
      AscendingOrder(b.Keys);
      (t[event := Persistent(b)], Calls(b, Ascending(b.Keys), sent))
    else (t, [])
  }

  /**
   * The calls made by `send`: every listener of the event is called exactly
   * once, in ascending entity order, with its own parameters followed by the
   * sent ones, and nothing else is called.
   */
  lemma SendCallsEveryListenerOnce<V>(t: Table<V>, event: string, sent: seq<V>)
    ensures var calls := Sent(t, event, sent).1;
      (event in t ==> |calls| == |t[event]|) &&
      (forall k :: 0 <= k < |calls| ==>
         Lookup(t, event, calls[k].receiver).Some? &&
         var l := Lookup(t, event, calls[k].receiver).value;
         calls[k] == Invocation(calls[k].receiver, l.callback, l.parameters + sent)) &&
      (forall id :: Lookup(t, event, id).Some? ==> exists k :: 0 <= k < |calls| && calls[k].receiver == id) &&
      (forall j, k :: 0 <= j < k < |calls| ==> calls[j].receiver < calls[k].receiver) &&
      (forall j, k :: 0 <= j < |calls| && 0 <= k < |calls| && calls[j].receiver == calls[k].receiver ==> j == k)
  {
    if event in t {
      CallsCoverBucket(t[event], sent);
    }
  }

  /** Calling a whole bucket in ascending order calls each of its listeners once. */
  lemma CallsCoverBucket<V>(b: Bucket<V>, sent: seq<V>)
    ensures forall k :: 0 <= k < |Ascending(b.Keys)| ==> Ascending(b.Keys)[k] in b
    ensures var calls := Calls(b, Ascending(b.Keys), sent);
      |calls| == |b| &&
      (forall k :: 0 <= k < |calls| ==>
         calls[k].receiver in b &&
         calls[k] == Invocation(calls[k].receiver, b[calls[k].receiver].callback, b[calls[k].receiver].parameters + sent)) &&
      (forall id :: id in b ==> exists k :: 0 <= k < |calls| && calls[k].receiver == id) &&
      (forall j, k :: 0 <= j < k < |calls| ==> calls[j].receiver < calls[k].receiver)
  {
    var ids := Ascending(b.Keys);
    AscendingOrder(b.Keys);
    var calls := Calls(b, ids, sent);
    assert |b| == |b.Keys|;
    forall id | id in b
      ensures exists k :: 0 <= k < |calls| && calls[k].receiver == id
    {
      var k :| 0 <= k < |ids| && ids[k] == id;
      assert calls[k].receiver == id;
    }
  }

  // ---------------------------------------------------------------------------
  // Laws of the table
  // ---------------------------------------------------------------------------

  /** A second `listen` on the same slot replaces the first. */
  lemma ListenOverwrites<V>(t: Table<V>, event: string, id: EntityId, l1: Listener<V>, l2: Listener<V>)
    ensures Listened(Listened(t, event, id, l1), event, id, l2) == Listened(t, event, id, l2)
  {
    var b := if event in t then t[event] else map[];
    assert Listened(t, event, id, l1)[event] == b[id := l1];
    assert b[id := l1][id := l2] == b[id := l2];
  }

  /** `ignore` is idempotent. */
  lemma IgnoreIdempotent<V>(t: Table<V>, event: string, id: EntityId)
    ensures Ignored(Ignored(t, event, id), event, id) == Ignored(t, event, id)
  {
    var r := Ignored(t, event, id);
    if event in r {
      assert r[event] - {id} == r[event];
    }
  }

  /** `ignore` undoes a `listen` on a slot that was empty in a bucket that had other listeners. */
  lemma IgnoreUndoesListen<V>(t: Table<V>, event: string, id: EntityId, l: Listener<V>)
    requires event in t && id !in t[event] && t[event] != map[]
    ensures Ignored(Listened(t, event, id, l), event, id) == t
  {
    assert t[event][id := l] - {id} == t[event];
  }

  /**
   * A non-persistent listener fires once: the first `send` calls it exactly
   * once, with its parameters followed by the sent ones...
   */
  lemma NonPersistentFiresOnce<V>(t: Table<V>, event: string, id: EntityId, cb: CallbackId,
                                  params: seq<V>, sent: seq<V>)
    ensures var calls := Sent(Listened(t, event, id, Listener(cb, params, false)), event, sent).1;
            (exists k :: 0 <= k < |calls| && calls[k] == Invocation(id, cb, params + sent)) &&
            (forall j, k :: (0 <= j < |calls| && 0 <= k < |calls| &&
                             calls[j].receiver == id && calls[k].receiver == id) ==> j == k)
  {
    var t1 := Listened(t, event, id, Listener(cb, params, false));
    var calls := Sent(t1, event, sent).1;
    SendCallsEveryListenerOnce(t1, event, sent);
    assert Lookup(t1, event, id) == Some(Listener(cb, params, false));
    var k :| 0 <= k < |calls| && calls[k].receiver == id;
  }

  /** ...and is gone afterwards, so no later `send` calls it. */
  lemma NonPersistentGoneAfterSend<V>(t: Table<V>, event: string, id: EntityId, sent: seq<V>, again: seq<V>)
    requires Lookup(t, event, id).Some? && !Lookup(t, event, id).value.persistent
    ensures var t1 := Sent(t, event, sent).0;
            Lookup(t1, event, id) == None &&
            forall k :: 0 <= k < |Sent(t1, event, again).1| ==> Sent(t1, event, again).1[k].receiver != id
  {
    var t1 := Sent(t, event, sent).0;
    SendCallsEveryListenerOnce(t1, event, again);
  }

  /** A persistent listener survives every `send`, so each later `send` calls it again. */
  lemma PersistentSurvivesSend<V>(t: Table<V>, event: string, id: EntityId, sent: seq<V>, again: seq<V>)
    requires Lookup(t, event, id).Some? && Lookup(t, event, id).value.persistent
    ensures var (t1, _) := Sent(t, event, sent);
            Lookup(t1, event, id) == Lookup(t, event, id) &&
            exists k :: 0 <= k < |Sent(t1, event, again).1| && Sent(t1, event, again).1[k] ==
              Invocation(id, Lookup(t, event, id).value.callback, Lookup(t, event, id).value.parameters + again)
  {
    var (t1, _) := Sent(t, event, sent);
    var calls := Sent(t1, event, again).1;
    SendCallsEveryListenerOnce(t1, event, again);
    assert Lookup(t1, event, id).Some?;
    var k :| 0 <= k < |calls| && calls[k].receiver == id;
  }

  /**
   * Part way through `send`: the listeners visited so far are the first ones
   * in ascending order, and each of them has been called once.
   */
  ghost predicate Sending<V>(b: Bucket<V>, remaining: set<EntityId>, visited: seq<EntityId>,
                             invoked: seq<Invocation<V>>, sent: seq<V>) {
    remaining <= b.Keys &&
    Ascending(b.Keys) == visited + Ascending(remaining) &&
    (forall k :: 0 <= k < |visited| ==> visited[k] in b) &&
    invoked == Calls(b, visited, sent)
  }

  lemma SendingStep<V>(b: Bucket<V>, remaining: set<EntityId>, visited: seq<EntityId>,
                       invoked: seq<Invocation<V>>, sent: seq<V>, id: EntityId)
    requires Sending(b, remaining, visited, invoked, sent) && IsLeast(id, remaining)
    ensures id in b
    ensures Sending(b, remaining - {id}, visited + [id],
                    invoked + [Invocation(id, b[id].callback, b[id].parameters + sent)], sent)
  {
    AscendingStep(remaining, id);
    CallsStep(b, visited, id, sent);
  }

  lemma SendingEnd<V>(b: Bucket<V>, visited: seq<EntityId>, invoked: seq<Invocation<V>>, sent: seq<V>)
    requires Sending(b, {}, visited, invoked, sent)
    ensures invoked == Calls(b, Ascending(b.Keys), sent)
  {
    assert Ascending({}) == [];
  }

  // ---------------------------------------------------------------------------
  // The Messenger object
  // ---------------------------------------------------------------------------

  class Messenger<V> {
    /** event name -> entity id -> registration */
    var callbacks: Table<V>

    constructor ()
      ensures callbacks == map[]
    {
      callbacks := map[];
    }

    /** Register (or re-register) `entity`'s callback for `event`. */
    method Listen(event: string, entity: EntityId, callback: CallbackId, parameters: seq<V>, persistent: bool)
      modifies this
      ensures callbacks == Listened(old(callbacks), event, entity, Listener(callback, parameters, persistent))
    {
      if event !in callbacks {
        var empty: Bucket<V> := map[];
        callbacks := callbacks[event := empty];
      }
      var bucket := callbacks[event];
      callbacks := callbacks[event := bucket[entity := Listener(callback, parameters, persistent)]];
    }

    /** Remove `entity`'s registration for `event`, and the bucket once it is empty. */
    method Ignore(event: string, entity: EntityId)
      modifies this
      ensures callbacks == Ignored(old(callbacks), event, entity)
    {
      if event in callbacks {
        if entity in callbacks[event] {
          callbacks := callbacks[event := callbacks[event] - {entity}];
        } else {
          assert callbacks[event] == old(callbacks)[event] - {entity};
        }
        if |callbacks[event].Keys| == 0 {
          callbacks := callbacks - {event};
        }
      }
    }

    /**
     * Call every listener of `event`, in ascending entity order, deleting the
     * non-persistent ones as it goes. Returns the calls made.
     */
    method Send(event: string, parameters: seq<V>) returns (invoked: seq<Invocation<V>>)
      modifies this
      ensures (callbacks, invoked) == Sent(old(callbacks), event, parameters)
    {
      invoked := [];
      if event in callbacks {
        var listeners := callbacks[event];
        var remaining := listeners.Keys;
        ghost var visited: seq<EntityId> := [];
        assert Pending(listeners, remaining) == listeners;
        while remaining != {}
          invariant Sending(listeners, remaining, visited, invoked, parameters)
          invariant callbacks == old(callbacks)[event := Pending(listeners, remaining)]
          decreases |remaining|
        {
          LeastExists(remaining);
          var id :| IsLeast(id, remaining);
          SendingStep(listeners, remaining, visited, invoked, parameters, id);
          PendingStep(listeners, remaining, id);
          var l := listeners[id];
          invoked := invoked + [Invocation(id, l.callback, l.parameters + parameters)];
          if !l.persistent {
            callbacks := callbacks[event := callbacks[event] - {id}];
          }
          remaining := remaining - {id};
          visited := visited + [id];
        }
        SendingEnd(listeners, visited, invoked, parameters);
        assert Pending(listeners, {}) == Persistent(listeners);
      }
    }

    // Input bridging: each DOM handler converts its event and sends it with no parameters.

    method KeyDown(code: int, m: Modifiers) returns (invoked: seq<Invocation<V>>)
      modifies this
      ensures (callbacks, invoked) == Sent(old(callbacks), ConvertKeyEvent(code, m, "down"), [])
    {
      invoked := Send(ConvertKeyEvent(code, m, "down"), []);
    }

    method KeyUp(code: int, m: Modifiers) returns (invoked: seq<Invocation<V>>)
      modifies this
      ensures (callbacks, invoked) == Sent(old(callbacks), ConvertKeyEvent(code, m, "up"), [])
    {
      invoked := Send(ConvertKeyEvent(code, m, "up"), []);
    }

    method MouseButtonDown(button: int, m: Modifiers) returns (invoked: seq<Invocation<V>>)
      modifies this
      ensures (callbacks, invoked) == Sent(old(callbacks), ConvertMouseButtonEvent(button, m, "down"), [])
    {
      invoked := Send(ConvertMouseButtonEvent(button, m, "down"), []);
    }

    method MouseButtonUp(button: int, m: Modifiers) returns (invoked: seq<Invocation<V>>)
      modifies this
      ensures (callbacks, invoked) == Sent(old(callbacks), ConvertMouseButtonEvent(button, m, "up"), [])
    {
      invoked := Send(ConvertMouseButtonEvent(button, m, "up"), []);
    }

    method MouseWheelScroll(detail: int, m: Modifiers) returns (invoked: seq<Invocation<V>>)
      modifies this
      ensures (callbacks, invoked) == Sent(old(callbacks), ConvertMouseWheelEvent(detail, m), [])
    {
      invoked := Send(ConvertMouseWheelEvent(detail, m), []);
    }
  }
}

=== FILE: tasker.dfy ===
/**
 * The Tasker: a table of per-frame tasks, indexed by id and by name, and one
 * pass of its run loop. The clock (`Date.now()`) is the parameter `now`, and
 * the values the callbacks return during the pass are the parameter
 * `returned` (task id -> number returned; a task missing from it returns
 * something that is not a number). The pass that reschedules itself through
 * `setTimeout` is not modelled: `Run` is one pass.
 */
module Scheduling {
  import opened Wrappers
  import opened ForIn

  type CallbackId = nat

  class Task {
    const id: nat
    /** `options.name || undefined`: an empty name counts as none. */
    const name: Option<string>
    /** `options.callback || function () {}`: None is the do-nothing callback. */
    const callback: Option<CallbackId>
    var time: int
    var dt: int
    var run: bool

    /** The task's own signals; the removal test compares against this DONE. */
    const DONE: int := 0
    const CONTINUE: int := 1
    const AGAIN: int := 2

    constructor (id: nat, name: Option<string>, callback: Option<CallbackId>, now: int)
      ensures this.id == id && this.name == name && this.callback == callback
      ensures time == now && dt == 0 && run
    {
      this.id := id;
      this.name := name;
      this.callback := callback;
      time := now;
      dt := 0;
      run := true;
    }

    method Suspend()
      modifies this`run
      ensures !run
    {
      run := false;
    }

    method Resume()
      modifies this`run
      ensures run
    {
      run := true;
    }
  }

  /** The name under which `add` indexes a task: an empty name is no name. */
  function StoredName(name: Option<string>): (r: Option<string>)
    ensures r.Some? <==> name.Some? && name.value != ""
    ensures r.Some? ==> r == name
  {
    if name == Some("") then None else name
  }

  /** The names of the tasks `ids` of a table. */
  function NamesOf(tasks: map<nat, Task>, ids: set<nat>): set<string> {
    set id | id in ids && id in tasks && tasks[id].name.Some? :: tasks[id].name.value
  }

  /**
   * Whether a task's callback returned 0, the value of every task's own DONE.
   * The default callback `function () {}` returns `undefined`, which is never
   * DONE, so a task without a callback of its own never signals it.
   */
  predicate SignalsDone(task: Task, returned: map<nat, int>) {
    task.callback.Some? && task.id in returned && returned[task.id] == 0
  }

  /** The tasks among `ran` that signalled DONE: these are the tasks a pass removes. */
  function Finished(byId: map<nat, Task>, ran: seq<nat>, returned: map<nat, int>): set<nat> {
    set id | id in ran && id in byId && SignalsDone(byId[id], returned)
  }

  /** A task running the default callback is never among the finished ones. */
  lemma DefaultCallbackNotFinished(byId: map<nat, Task>, ran: seq<nat>, returned: map<nat, int>)
    ensures forall id :: id in byId && byId[id].callback.None? ==> id in byId - Finished(byId, ran, returned)
  {
  }

  lemma FinishedStep(byId: map<nat, Task>, ran: seq<nat>, id: nat, returned: map<nat, int>)
    requires id in byId
    ensures Finished(byId, ran + [id], returned) ==
      Finished(byId, ran, returned) + (if SignalsDone(byId[id], returned) then {id} else {})
  {
  }

  lemma NamesOfStep(tasks: map<nat, Task>, ids: set<nat>, id: nat)
    requires id in tasks
    ensures NamesOf(tasks, ids + {id}) ==
      NamesOf(tasks, ids) + (if tasks[id].name.Some? then {tasks[id].name.value} else {})
  {
  }

  lemma MinusStep<K, W>(m: map<K, W>, s: set<K>, k: K)
    ensures (m - s) - {k} == m - (s + {k})
  {
  }

  /**
   * The task tables' invariant: every task sits under its own id, which is
   * below `nextId`; every name entry is a live task carrying that (non-empty)
   * name.
   */
  ghost predicate Indexed(byId: map<nat, Task>, byName: map<string, Task>, nextId: nat) {
    (forall id :: id in byId ==> byId[id].id == id && id < nextId) &&
    (forall n :: n in byName ==>
       byName[n].name == Some(n) && n != "" &&
       byName[n].id in byId && byId[byName[n].id] == byName[n])
  }

  /** Removing some tasks together with their names keeps the tables indexed. */
  lemma RemovalKeepsIndexed(byId: map<nat, Task>, byName: map<string, Task>, nextId: nat, gone: set<nat>)
    requires Indexed(byId, byName, nextId)
    ensures Indexed(byId - gone, byName - NamesOf(byId, gone), nextId)
  {
    var names := NamesOf(byId, gone);
    forall n | n in byName - names
      ensures byName[n].id in byId - gone
    {
      assert byName[n].id in gone ==> n in names;
    }
  }

  /**
   * The clocks part way through a pass: a task already visited has
   * `time == now` and `dt` measured from its time before the pass (`times`),
   * one still to be visited has its old time, and no task's run flag changed.
   */
  ghost predicate Clocked(byId: map<nat, Task>, enabled: set<nat>, remaining: set<nat>,
                          now: int, times: map<nat, int>)
    reads byId.Values
  {
    forall id :: id in byId ==>
      byId[id].id == id && id in times &&
      (byId[id].run <==> id in enabled) &&
      if id in remaining then byId[id].time == times[id]
      else byId[id].time == now && byId[id].dt == now - times[id]
  }

  /**
   * Part way through a pass: `ran` lists, in ascending order, the enabled ids
   * already visited, and none of them is still to be visited.
   */
  ghost predicate Visiting(enabled: set<nat>, remaining: set<nat>, ran: seq<nat>) {
    Ascending(enabled) == ran + Ascending(enabled * remaining) &&
    forall k :: 0 <= k < |ran| ==> ran[k] !in remaining
  }

  lemma VisitStart(enabled: set<nat>, keys: set<nat>)
    requires enabled <= keys
    ensures Visiting(enabled, keys, [])
  {
    assert enabled * keys == enabled;
  }

  lemma VisitNext(enabled: set<nat>, remaining: set<nat>, ran: seq<nat>, id: nat)
    requires Visiting(enabled, remaining, ran) && IsLeast(id, remaining)
    ensures id !in ran
    ensures Visiting(enabled, remaining - {id}, if id in enabled then ran + [id] else ran)
  {
    if id in enabled {
      assert IsLeast(id, enabled * remaining);
      AscendingStep(enabled * remaining, id);
      assert enabled * (remaining - {id}) == (enabled * remaining) - {id};
    } else {
      assert enabled * (remaining - {id}) == enabled * remaining;
    }
  }

  lemma VisitEnd(enabled: set<nat>, ran: seq<nat>)
    requires Visiting(enabled, {}, ran)
    ensures ran == Ascending(enabled)
    ensures forall id :: id in ran <==> id in enabled
  {
    assert Ascending({}) == [];
    AscendingOrder(enabled);
  }

  /**
   * The live tables of a pass that has called the tasks `ran`: the finished
   * ones are gone from the id table, and their names from the name table.
   */
  ghost predicate Pruned(byId: map<nat, Task>, byName: map<string, Task>, ran: seq<nat>,
                         returned: map<nat, int>, liveById: map<nat, Task>, liveByName: map<string, Task>) {
    liveById == byId - Finished(byId, ran, returned) &&
    liveByName == byName - NamesOf(byId, Finished(byId, ran, returned))
  }

  lemma PrunedStart(byId: map<nat, Task>, byName: map<string, Task>, returned: map<nat, int>)
    ensures Pruned(byId, byName, [], returned, byId, byName)
  {
    assert Finished(byId, [], returned) == {};
    assert byName - NamesOf(byId, {}) == byName;
  }

  lemma PrunedNext(byId: map<nat, Task>, byName: map<string, Task>, ran: seq<nat>, returned: map<nat, int>,
                   liveById: map<nat, Task>, liveByName: map<string, Task>, id: nat)
    requires Pruned(byId, byName, ran, returned, liveById, liveByName)
    requires id in byId && id !in ran
    ensures id in liveById && liveById[id] == byId[id]
    ensures var done := SignalsDone(byId[id], returned);
      Pruned(byId, byName, ran + [id], returned,
             if done then liveById - {id} else liveById,
             if done && byId[id].name.Some? then liveByName - {byId[id].name.value} else liveByName)
  {
    var finished := Finished(byId, ran, returned);
    FinishedStep(byId, ran, id, returned);
    if SignalsDone(byId[id], returned) {
      NamesOfStep(byId, finished, id);
      MinusStep(byId, finished, id);
      if byId[id].name.Some? {
        MinusStep(byName, NamesOf(byId, finished), byId[id].name.value);
      } else {
        assert NamesOf(byId, finished + {id}) == NamesOf(byId, finished);
      }
    }
  }

  class Tasker {
    /** The scheduler's signals; note that DONE here is 1, while a task's DONE is 0. */
    const CONT: int := 0
    const DONE: int := 1
    const AGAIN: int := 2

    var nextId: nat
    var tasksById: map<nat, Task>
    var tasksByName: map<string, Task>
    var terminated: bool

    /**
     * Every task sits under its own id, which is below `nextId`; every name
     * entry is a live task carrying that (non-empty) name.
     */
    ghost predicate Valid()
      reads this
    {
      Indexed(tasksById, tasksByName, nextId)
    }

    /** The ids of the tasks that are not suspended. */
    ghost function EnabledIds(): set<nat>
      reads this, tasksById.Values
    {
      set id | id in tasksById && tasksById[id].run
    }

    constructor ()
      ensures Valid()
      ensures nextId == 0 && tasksById == map[] && tasksByName == map[] && !terminated
    {
      nextId := 0;
      tasksById := map[];
      tasksByName := map[];
      terminated := false;
    }

    /**
     * Register a task under the next id. A named task is also indexed by its
     * name, replacing whatever task was indexed under that name before (that
     * task stays in the id table).
     */
    method Add(name: Option<string>, callback: Option<CallbackId>, now: int) returns (task: Task)
      requires Valid()
      modifies this
      ensures Valid() && fresh(task)
      ensures task.id == old(nextId) && task.id !in old(tasksById) && nextId == old(nextId) + 1
      ensures task.name == StoredName(name) && task.callback == callback
      ensures task.time == now && task.dt == 0 && task.run
      ensures tasksById == old(tasksById)[task.id := task]
      ensures tasksByName == if task.name.Some? then old(tasksByName)[task.name.value := task] else old(tasksByName)
      ensures terminated == old(terminated)
    {
      var id := nextId;
      nextId := nextId + 1;
      task := new Task(id, StoredName(name), callback, now);
      tasksById := tasksById[id := task];
      if task.name.Some? {
        tasksByName := tasksByName[task.name.value := task];
      }
    }

    /**
     * Drop a task from the id table and its name from the name table; a task
     * already gone is a no-op. The name entry is dropped whichever task it
     * points to.
     */
    method Remove(task: Task)
      requires Valid()
      requires task.id in tasksById ==> tasksById[task.id] == task
      modifies this
      ensures Valid()
      ensures tasksById == old(tasksById) - {task.id}
      ensures tasksByName == if task.name.Some? then old(tasksByName) - {task.name.value} else old(tasksByName)
      ensures nextId == old(nextId) && terminated == old(terminated)
    {
      Delete(task);
    }

    /** The table updates of `Remove`, without its invariant bookkeeping. */
    method Delete(task: Task)
      modifies this
      ensures tasksById == old(tasksById) - {task.id}
      ensures tasksByName == if task.name.Some? then old(tasksByName) - {task.name.value} else old(tasksByName)
      ensures nextId == old(nextId) && terminated == old(terminated)
    {
      if task.id in tasksById {
        tasksById := tasksById - {task.id};
      }
      if task.name.Some? && task.name.value in tasksByName {
        tasksByName := tasksByName - {task.name.value};
      }
    }

    /** Stop future passes (the rescheduling itself is not modelled). */
    method Terminate()
      modifies this`terminated
      ensures terminated
    {
      terminated := true;
    }

    /**
     * The loop body of a pass for one task: refresh its clock, and if it is
     * enabled call it and remove it when the callback returned its DONE.
     */
    method Tick(task: Task, now: int, returned: map<nat, int>, ghost byId: map<nat, Task>,
                ghost enabled: set<nat>, ghost remaining: set<nat>, ghost times: map<nat, int>)
      returns (called: bool, done: bool)
      requires task.id in tasksById && tasksById[task.id] == task
      requires task.id in byId && byId[task.id] == task && task.id in remaining
      requires Clocked(byId, enabled, remaining, now, times)
      modifies this, task
      ensures Clocked(byId, enabled, remaining - {task.id}, now, times)
      ensures task.time == now && task.dt == now - old(task.time) && task.run == old(task.run)
      ensures called == task.run
      ensures done == (called && task.callback.Some? && task.id in returned && returned[task.id] == task.DONE)
      ensures tasksById == if done then old(tasksById) - {task.id} else old(tasksById)
      ensures tasksByName == if done && task.name.Some? then old(tasksByName) - {task.name.value} else old(tasksByName)
      ensures nextId == old(nextId) && terminated == old(terminated)
    {
      var last := task.time;
      task.time := now;
      task.dt := task.time - last;
      called, done := task.run, false;
      if task.run {
        if task.callback.Some? && task.id in returned && task.DONE == returned[task.id] {
          Delete(task);
          done := true;
        }
      }
    }

    /**
     * One pass over the tasks, in ascending id order. Every task gets
     * `time := now` and `dt := now - old time`, suspended or not; the callbacks
     * of the enabled tasks are called, and a task whose callback returned its
     * own DONE (0) is removed. Returns the ids whose callbacks were called.
     */
    method Run(now: int, returned: map<nat, int>) returns (ran: seq<nat>)
      requires Valid()
      modifies this, tasksById.Values
      ensures Valid()
      ensures ran == Ascending(old(EnabledIds()))
      ensures forall id :: id in ran <==> id in old(EnabledIds())
      ensures tasksById == old(tasksById) - Finished(old(tasksById), ran, returned)
      ensures tasksByName == old(tasksByName) - NamesOf(old(tasksById), Finished(old(tasksById), ran, returned))
      ensures forall id :: id in old(tasksById) && old(tasksById)[id].callback.None? ==> id in tasksById
      ensures forall t :: t in old(tasksById.Values) ==>
        t.time == now && t.dt == now - old(t.time) && t.run == old(t.run)
      ensures nextId == old(nextId) && terminated == old(terminated)
    {
      ghost var byId := tasksById;
      ghost var byName := tasksByName;
      ghost var enabled := EnabledIds();
      ghost var times := map id | id in byId :: byId[id].time;
      ran := [];
      var remaining := tasksById.Keys;
      VisitStart(enabled, remaining);
      PrunedStart(byId, byName, returned);
      while remaining != {}
        invariant remaining <= byId.Keys
        invariant Visiting(enabled, remaining, ran)
        invariant Pruned(byId, byName, ran, returned, tasksById, tasksByName)
        invariant Clocked(byId, enabled, remaining, now, times)
        invariant nextId == old(nextId) && terminated == old(terminated)
        decreases |remaining|
      {
        LeastExists(remaining);
        var id :| IsLeast(id, remaining);
        VisitNext(enabled, remaining, ran, id);
        PrunedNext(byId, byName, ran, returned, tasksById, tasksByName, id);
        var task := tasksById[id];
        var called, done := Tick(task, now, returned, byId, enabled, remaining, times);
        if called {
          ran := ran + [id];
        }
        remaining := remaining - {id};
      }
      VisitEnd(enabled, ran);
      RemovalKeepsIndexed(byId, byName, old(nextId), Finished(byId, ran, returned));
      DefaultCallbackNotFinished(byId, ran, returned);
    }
  }

  /**
   * Re-adding a name orphans the first task (live, but no longer indexed by
   * name), and removing that orphan also drops the newer task's name entry.
   */
  method NameReuseOrphansTask() returns (orphanLive: bool, orphanListed: bool,
                                         newerLive: bool, newerListed: bool)
    ensures orphanLive && !orphanListed
    ensures newerLive && !newerListed
  {
    var tasker := new Tasker();
    var first := tasker.Add(Some("tick"), None, 0);
    var second := tasker.Add(Some("tick"), None, 0);
    orphanLive := first.id in tasker.tasksById;
    orphanListed := "tick" in tasker.tasksByName && tasker.tasksByName["tick"] == first;
    tasker.Remove(first);
    newerLive := second.id in tasker.tasksById;
    newerListed := "tick" in tasker.tasksByName;
  }

  /**
   * A callback returning the scheduler's DONE (1) keeps its task; returning
   * the task's own DONE (0) removes it.
   */
  method DoneSignals() returns (keptOnTaskerDone: bool, keptOnTaskDone: bool)
    ensures keptOnTaskerDone && !keptOnTaskDone
  {
    var tasker := new Tasker();
    var a := tasker.Add(None, Some(1), 0);
    var b := tasker.Add(None, Some(2), 0);
    var _ := tasker.Run(10, map[a.id := tasker.DONE, b.id := b.DONE]);
    keptOnTaskerDone := a.id in tasker.tasksById;
    keptOnTaskDone := b.id in tasker.tasksById;
  }

  /**
   * A task added without a callback runs `function () {}`, which returns
   * `undefined`: whatever is recorded for it, it is never removed by a pass.
   */
  method DefaultCallbackKeepsTask() returns (ran: seq<nat>, kept: bool)
    ensures ran == [0] && kept
  {
    var tasker := new Tasker();
    var t := tasker.Add(None, None, 0);
    ran := tasker.Run(10, map[t.id := t.DONE]);
    kept := t.id in tasker.tasksById;
  }

  /** A suspended task is not called, but its clock still advances. */
  method SuspendedTaskStillTimed() returns (ran: seq<nat>, dt: int)
    ensures ran == [] && dt == 15
  {
    var tasker := new Tasker();
    var t := tasker.Add(Some("idle"), None, 5);
    t.Suspend();
    ran := tasker.Run(20, map[]);
    dt := t.dt;
  }
}

=== FILE: wrappers.dfy ===
/** Optional values and success-or-error results, shared by the other modules. */
module Wrappers {

  datatype Option<+T> = None | Some(value: T) {
    /** The wrapped value, or `default` when there is none (JavaScript's `x || default`). */
    function GetOr(default: T): T {
      match this
      case Some(v) => v
      case None => default
    }
  }

  datatype Result<+T, +E> = Ok(value: T) | Err(error: E)

  datatype Outcome<+E> = Pass | Fail(error: E)
}
